=== FILE: README.md ===
# Badger encryption-key registry, in Dafny

This project models the encryption-key registry of the Badger key-value engine. It also models the stream-cipher helpers the registry is built on. Both the model and its proofs are in Dafny.

The registry keeps every data key the engine has ever used, in memory and in one file. A data key has:

- an id;
- key material;
- an IV;
- a creation time.

The registry file has a header and then one record per data key:

- **Header:** a 16-byte IV, then the sanity text "Hello Badger". When a storage key is configured, the sanity text is encrypted under the storage key and that IV. The header check uses it to detect a wrong storage key.
- **Record:** a big-endian payload length, then the big-endian CRC-32C of the payload, then the payload. The payload is the protobuf encoding of the data key. Its key material is encrypted under the storage key and the key's own IV.

In memory, the registry holds:

- the map from id to key;
- `nextKeyID`, the id of the current key;
- `lastCreated`, the creation time of the newest key.

`latestDataKey` returns the current key. When the rotation period has passed, it first mints a new key and appends that key's record to the file.

AES in counter mode (FIPS 197, section 6.5 of NIST SP 800-38A) is modelled as XOR with an abstract keystream. The keystream is a function from key, IV and offset to a byte.

The foreign code the registry calls is passed in as function-valued parameters, bundled in `Codec.Primitives`:

- the keystream;
- CRC-32C with the Castagnoli polynomial (section 12.1 of RFC 3720);
- protobuf marshalling and unmarshalling of `pb.DataKey`.

The round trips assume only `UnmarshalInvertsMarshal`: unmarshalling undoes marshalling.

Randomness is an `Entropy` value: either a supply of bytes or a failure. The clock is a single reading `now`, in Unix nanoseconds. Whether a write to the registry file succeeds is a boolean parameter.

Modules:

- `Wrappers`, `Errors` (wrappers.dfy): Option, Result and the registry's errors.
- `Bytes` (bytes.dfy):
  - bytes and Go's unsigned integer widths;
  - `x++` on a uint64, with wrap-around;
  - `uint32(len)`;
  - big-endian 32-bit encoding and decoding.
- `Cipher` (cipher.dfy): y/encrypt.go. That is `XORBlock`, `GenerateIV`, and `XORReader` as a loop over its two 1024-byte buffers (`bufIn`, `bufOut`).
- `Codec` (codec.dfy):
  - `storeDataKey`, as an imperative method that encrypts the key in place, appends to the buffer and decrypts again;
  - the frame layout;
  - the frames of a sequence of keys.
- `RegistryFile` (registry_file.dfy):
  - `isValidRegistry`;
  - `keyRegistryIterator` as a class holding the file cursor and the reused `lenCrcBuf` array;
  - its `Next`, against a specification function `NextSpec`;
  - `Parse`, the iterator run to its end;
  - the file image `WriteKeyRegistry` produces.
- `KeyReplay` (replay.dfy): what the loop of `readKeyRegistry` builds from the records, written as a function over the record sequence, with its properties.
- `Registry` (key_registry.dfy):
  - `KeyRegistry` as a class, with `newKeyRegistry`, `dataKey` and `latestDataKey`;
  - `readKeyRegistry`;
  - the byte assembly of `WriteKeyRegistry`;
  - the end-to-end lemmas: a written registry reloads, and a rotation persists.

### Behaviour of the code that the model keeps

- **Header layout.** The layout comment at key_registry.go:210-215 puts the sanity text before the IV. The code writes the IV first and reads it first (key_registry.go:126-134, 245-247). The model follows the code.
- **Truncated files.** A read of a file shorter than asked returns the bytes that are there, without an error. A truncated record therefore does not fail as a truncation:
  - a header cut short is read into the front of `lenCrcBuf`, behind which the previous header's bytes stay. The payload read that follows asks for the length those eight bytes announce. At the end of the file a non-zero length reads as a clean end. A length of zero is an empty read, which succeeds, so the empty payload goes on to the CRC check and, if that passes, to unmarshalling;
  - a payload cut short is zero-padded to the announced length and then checked against the CRC.

  `FileRead` and `NextSpec` model exactly this.
- **One read returns at most 2^30 bytes.** Go's os.File.Read cuts every read to 2^30 bytes (`Codec.MaxRW`), and Next reads the payload with a single `fp.Read` (key_registry.go:161-166). A record that announces more than 2^30 bytes therefore gets only its first 2^30 bytes, the rest of the buffer stays zero, and the cursor stops inside the payload (`RegistryFile.NextOnOversizedRecord`). storeDataKey writes such payloads without complaint, so they do not read back; the round-trip lemmas exclude them (`Codec.Framable`).
- **No rollback after a failed rotation.** `latestDataKey` increments `nextKeyID` before any step that can fail (key_registry.go:303-327). A rotation that fails on randomness, on the storage key or on the write leaves the keys, `lastCreated` and the file unchanged, but `nextKeyID` stays advanced (`Registry.KeyRegistry.Rotated`). Memory is then no longer the replay of the file, though it stays in step with it (`Registry.FailedRotationKeepsInStep`). A later rotation skips an id, and when it succeeds, memory is again exactly the replay of the file (`Registry.RotationPersists`).
- **A failed `storeDataKey` may clear the key material.** When aes.NewCipher rejects the storage key, `k.Data` has already been assigned nil (key_registry.go:349) before the error returns (`Codec.LeftByFailedStore`). That path is reachable only from `latestDataKey`, which then discards the new key anyway. `WriteKeyRegistry` rejects such a storage key earlier, at the sanity marker (key_registry.go:238-243). With a valid storage key the only failure is the IV-length panic, which assigns nothing, so `Registry.WriteKeyRegistry` leaves the registry unchanged in every case.
- **Replay keys by the running maximum.** `readKeyRegistry` stores each record under `nextKeyID`, the running maximum of the ids read (key_registry.go:203). It does not use the record's own id. `ReadKeyRegistry` keeps this behaviour, and the Findings below show its consequence.
- **The streaming helper writes plaintext.** `XORReader` writes `bufIn` (y/encrypt.go:59). `Cipher.XORReader` keeps this behaviour, and the Findings below show its consequence.

## Model

| member | source | states |
|---|---|---|
| Bytes.Inc64 | key_registry.go:303 | `nextKeyID++` on a uint64 adds one below the maximum and wraps to 0 at it |
| Bytes.LengthField | key_registry.go:362 | `uint32(len(data))` is the length itself for every length below 2^32 |
| Bytes.Zeros | key_registry.go:163 | `make([]byte, l)` has length `l` and holds only zero bytes |
| Bytes.Be32RoundTrip | key_registry.go:161-168 | BigEndian.Uint32 recovers every uint32 that PutUint32 wrote |
| Bytes.Be32Surjective | key_registry.go:361-363 | every 4 bytes are the big-endian encoding of the value they decode to |
| Cipher.XORBlock | y/encrypt.go:29-38 | succeeds exactly for a 16-, 24- or 32-byte key and a one-block IV; a bad key length is aes.NewCipher's KeySizeError; a result has the length of `src` |
| Cipher.XORBlockBytes | y/encrypt.go:34-37 | counter mode: output byte `i` is `src[i]` XOR keystream byte `i` |
| Cipher.XORBlockSelfInverse | y/encrypt.go:26-38 | encryption and decryption are the same call: applying XORBlock twice with the same key and IV restores the input |
| Cipher.XorAtSplit | y/encrypt.go:45-57 | transforming two pieces one after the other, with the stream continuing, equals transforming their concatenation |
| Cipher.RandomBytes | y/encrypt.go:74 | `rand.Read` into an `n`-byte buffer yields `n` bytes, or RandomSourceError exactly when the source fails |
| Cipher.GenerateIV | y/encrypt.go:72-76 | an IV is exactly aes.BlockSize (16) bytes; it fails exactly when the random source fails |
| Cipher.ReadInto | y/encrypt.go:52 | a read into `bufIn` overwrites its first `bytesRead` bytes with the data delivered |
| Cipher.XORKeyStream | y/encrypt.go:57 | `bufOut[:n]` becomes `bufIn[:n]` XORed with the keystream from the stream's current offset, and the rest of `bufOut` is untouched |
| Cipher.ChunkStep | y/encrypt.go:45-57 | one loop iteration extends the input read so far by the chunk, and the transformed stream by the chunk's transform at the running offset (no restart at chunk boundaries) |
| Cipher.XORReader | y/encrypt.go:40-69 | key and IV errors before any read; otherwise the loop stops after the call that reports EOF, a read error or a failing write, returns that error, transforms the whole stream read with one keystream, and writes exactly the bytes read (the input itself) |
| Cipher.EncryptChunks | y/encrypt.go:47-68 | the loop with the write taken from `bufOut`: same stopping call and error, and the bytes written are the keystream transform of everything read before the stop |
| Cipher.XORReaderFixed | y/encrypt.go:40-69 | with `bufOut` written, the output is exactly XORBlock of the concatenated input (or of the input before a failing write) |
| Cipher.PlaintextIsNotCiphertext | y/encrypt.go:57-59 | wherever the keystream is non-zero, XORBlock's output differs from its input, so the writer of the source receives no ciphertext |
| Codec.Sealed | key_registry.go:344-351 | the key as marshalled keeps its id, IV and creation time and the length of its material; with no storage key it is untouched |
| Codec.UnsealSealed | key_registry.go:368-369 | decrypting the sealed material with the same storage key and IV gives the plaintext back |
| Codec.Frame | key_registry.go:361-367 | a frame is 8 + len(payload) bytes ending with the payload |
| Codec.LeftByFailedStore | key_registry.go:344-356 | a failed storeDataKey keeps the key's id, IV and creation time |
| Codec.StoreDataKey | key_registry.go:341-370 | succeeds exactly when there is no storage key or a valid key and a one-block IV; on success the buffer grows by BE32(len) ‖ BE32(crc32c) ‖ payload, which is the key's frame, and `k.Data` ends as it began; on failure the buffer is unchanged, the error is the cipher's, and `k.Data` is nil only when the storage key was rejected |
| Codec.Frames | key_registry.go:250-255 | one frame per key, in the order the keys are stored |
| Codec.EncodeAllFirst | key_registry.go:250-255 | the stored frames of a key list are the first key's frame followed by the frames of the rest |
| Codec.EncodeAllLast | key_registry.go:320-325 | appending a key to the list appends its frame to the bytes |
| RegistryFile.FileRead | key_registry.go:158-166 | `fp.Read` returns at most the buffer's length; EOF only at the end of the file and with nothing read; a successful non-empty read returns exactly the next `min(want, 2^30, bytes left)` bytes of the file from the cursor, so a short read at the end returns the file's tail and one read never returns more than 2^30 bytes |
| RegistryFile.SanityMarker | key_registry.go:236-244 | the header marker is 12 bytes, and can be built exactly when there is no storage key or a valid key and a one-block IV |
| RegistryFile.IsValidRegistry | key_registry.go:125-146 | the header check never moves the cursor past the 28 header bytes |
| RegistryFile.HeaderCheckDecides | key_registry.go:135-145 | on a complete header the check accepts exactly when the decrypted marker is "Hello Badger", and otherwise fails with ErrEncryptionKeyMismatch or the cipher's error |
| RegistryFile.WrittenHeaderAccepted | key_registry.go:232-248 | the header WriteKeyRegistry writes passes isValidRegistry under the same storage key |
| RegistryFile.Decode | key_registry.go:171-181 | decoding a payload yields a key or an error, never a clean end |
| RegistryFile.DecodeStoredPayload | key_registry.go:171-181 | unmarshalling and decrypting a payload storeDataKey produced gives back the original key |
| RegistryFile.NextSpec | key_registry.go:148-182 | Next never moves the cursor back, keeps an 8-byte lenCrcBuf, and a record moves it forward within the file |
| RegistryFile.NextPayload | key_registry.go:161-181 | the payload half of Next keeps lenCrcBuf and never moves the cursor back |
| RegistryFile.NextAtEndOfFile | key_registry.go:150-160 | at the end of the file Next returns (nil, nil) and moves nothing |
| RegistryFile.NextHeaderFault | key_registry.go:150-160 | a header read error other than EOF is returned as an error |
| RegistryFile.NextOnFrame | key_registry.go:158-181 | on a complete frame Next moves past it, keeps its header, and decodes the payload exactly when the stored CRC is the payload's |
| RegistryFile.NextOnCompleteRecord | key_registry.go:158-181 | on any fault-free file, whoever wrote it, where the length the next four bytes announce is at most 2^30 and fits after the 8-byte header, Next moves past header and payload, keeps the header in lenCrcBuf, and decodes the payload exactly when the following four bytes are its CRC-32C, else errBadChecksum |
| RegistryFile.NextOnOversizedRecord | key_registry.go:161-170 | on a record announcing more than 2^30 bytes, the single payload read returns only 2^30 of them: the cursor stops 2^30 bytes past the header, and the CRC is checked, and the payload decoded, on those bytes padded with zeros to the announced length |
| RegistryFile.PayloadOverLimit | key_registry.go:161-170 | the payload half of Next on such a header reads 2^30 bytes and checks the zero-padded buffer |
| RegistryFile.NextRejectsBadChecksum | key_registry.go:167-170 | a stored CRC that differs from the payload's gives errBadChecksum |
| RegistryFile.NextReadsStoredRecord | key_registry.go:148-182 | Next on a frame storeDataKey wrote returns the original key (id, plaintext material, IV, creation time) and moves past the frame |
| RegistryFile.Parse | key_registry.go:192-206 | the iterator run to its end yields at most one record per byte left in the file, so the loop of readKeyRegistry ends |
| RegistryFile.ParseRecordStep | key_registry.go:192-205 | one record from Next followed by the rest of the iteration is the whole iteration |
| RegistryFile.ParseAfterNext | key_registry.go:192-206 | after one call of Next, the records still to come and the final error are consistent with the whole iteration |
| RegistryFile.ParseStoredRecords | key_registry.go:148-182 | frames written back to back are read back in order, to a clean end |
| RegistryFile.RegistryImage | key_registry.go:245-255 | the written image starts with the IV in clear, then the 12-byte marker, and the first key's frame follows the marker directly |
| RegistryFile.WrittenRegistryReadsBack | key_registry.go:219-255 | a file written under a storage key passes the header check under it, and its iterator yields exactly the keys written, in order, then a clean end |
| RegistryFile.RegistryIterator.constructor | key_registry.go:116-122 | a new iterator has a zeroed 8-byte lenCrcBuf and the given file, key and cursor |
| RegistryFile.RegistryIterator.Next | key_registry.go:148-182 | the cursor, lenCrcBuf and the result after the call are those NextSpec gives for the state before it |
| RegistryFile.RegistryIterator.ReadPayload | key_registry.go:161-181 | the payload half of Next leaves lenCrcBuf alone and agrees with NextPayload |
| RegistryFile.NewKeyRegistryIterator | key_registry.go:116-122 | the new iterator starts where isValidRegistry left the cursor, and the call returns isValidRegistry's error |
| KeyReplay.Replay | key_registry.go:190-207 | no record gives the registry newKeyRegistry builds; otherwise the last record read is the entry under nextKeyID, the key latestDataKey returns until the next rotation |
| KeyReplay.ReplayStep | key_registry.go:194-203 | one loop iteration raises nextKeyID and lastCreated to the record's values when those are larger, and stores the record under the new nextKeyID, leaving every other entry as it was |
| KeyReplay.ReplayUpperBounds | key_registry.go:190-207 | after the loop no record read has a larger id than nextKeyID or a later creation time than lastCreated, and no entry sits above nextKeyID |
| KeyReplay.ReplayMaximaAttained | key_registry.go:190-207 | nextKeyID and lastCreated are 0 or values read, and after any record the map holds an entry under nextKeyID |
| KeyReplay.ReplayKeysAreIds | key_registry.go:190-207 | every id in the map is the id of some record read |
| KeyReplay.ReplaySortedStoresById | key_registry.go:193-206 | with non-decreasing ids every record is stored under its own id, and nextKeyID is the last id read |
| KeyReplay.ReplayIncreasingFindsEach | key_registry.go:193-206 | with strictly increasing ids each record is found under its own id |
| KeyReplay.ReplayOutOfOrderLosesKey | key_registry.go:203 | a file holding key 2 then key 1 is read as a map whose only entry, under id 2, is key 1 |
| KeyReplay.ReplayKeysAreLeaders | key_registry.go:193-206 | the map holds entries only under ids of records that were at least the running maximum when they arrived |
| KeyReplay.ReplayOutOfOrderLosesSomeKey | key_registry.go:193-206 | with distinct ids not in increasing order, some record's id has no entry in the map |
| KeyReplay.ReplayStoresEachByIdIff | key_registry.go:193-206 | with distinct ids, every record is found under its own id exactly when the ids arrive in increasing order |
| KeyReplay.ReplayByIdStep | key_registry.go:194-203 | the corrected step stores each record under its own id |
| KeyReplay.InOrder | key_registry.go:250 | the keys of the map in the order the range visits their ids |
| KeyReplay.ReplayByIdPrefix | key_registry.go:193-206 | replaying by id the first `n` keys listed rebuilds the map restricted to those ids |
| KeyReplay.ReplayByIdRebuilds | key_registry.go:203 | with the corrected step, a registry keyed by id is rebuilt from its records in any order |
| KeyReplay.ReplayRebuildsAscending | key_registry.go:193-206 | the step as written rebuilds a registry keyed by id when its records are in increasing id order |
| KeyReplay.RotationAgreesWithReplay | key_registry.go:303-331 | a key whose id is at least the largest id in the file, created no earlier than lastCreated, replays to exactly the state latestDataKey leaves in memory |
| Registry.KeyRegistry.constructor | key_registry.go:56-62 | newKeyRegistry: no keys, nextKeyID 0, lastCreated 0, the given options |
| Registry.KeyRegistry.DataKeyById | key_registry.go:272-282 | id 0 gives no key; a non-zero id succeeds exactly when it is in the map and returns its key; otherwise ErrInvalidDataKeyID for that id; the registry is only read |
| Registry.KeyRegistry.Absorb | key_registry.go:194-203 | the loop body moves the registry by exactly one replay step and leaves the file alone |
| Registry.KeyRegistry.LatestDataKey | key_registry.go:287-333 | no storage key: no key and nothing changes; within the rotation period: the key under nextKeyID and nothing changes; otherwise the outcome of a rotation |
| Registry.RotationStaysDue | key_registry.go:292-293 | once the time since lastCreated reaches the rotation period, it stays reached at every later clock reading |
| Registry.NotDueRightAfterRotation | key_registry.go:292-293 | right after a rotation at `now`, with lastCreated set to `now` in whole seconds, a rotation period of at least a second is not over, so the next call returns the new key |
| Registry.KeyRegistry.Rotate | key_registry.go:300-332 | nextKeyID advances by one (wrapping) in every case; success exactly when both random reads, the storage key and the write succeed; on success the new key has the fresh material and IV, is returned, stored under its id, sets lastCreated and its frame is appended to the file; on failure keys, lastCreated and file are unchanged |
| Registry.ReadKeyRegistry | key_registry.go:185-208 | a bad header gives no registry and its error; otherwise a fresh registry in the state that replaying every record the iterator yields gives, with the iterator's error |
| Registry.StoreKeys | key_registry.go:250-255 | storing keys in range order succeeds exactly when every key is storable and appends their frames; otherwise it stops at the first unstorable key, which is left as a failed storeDataKey leaves it |
| Registry.WriteKeyRegistry | key_registry.go:219-259 | the image is header IV ‖ marker ‖ the frames of all keys in range order; it fails exactly on a failed IV, a bad storage key, with a storage key set, a key whose IV is not one block long, or a failed write, each with its own error; the registry is unchanged |
| Registry.WrittenRegistryReloads | key_registry.go:185-255 | a registry keyed by id, written in increasing id order, passes the header check and reads back to a clean end with exactly the same map |
| Registry.WrittenRegistryReloadsById | key_registry.go:185-255 | with the corrected replay step, a registry keyed by id reads back to the same map whatever order the range wrote it in |
| Registry.RotatedKey | key_registry.go:313-331 | a successful rotation returns a storable key with id nextKeyID, created at `now` in seconds, stored in the map and framed onto the file |
| Registry.RotationAppendsFrame | key_registry.go:320-325 | a registry file with one more frame appended is the file of the longer key list |
| Registry.RotationPersists | key_registry.go:303-331 | if memory was in step with the file's records (their replay, with nextKeyID possibly advanced by failed rotations), after a successful rotation the file (the contents loaded at open followed by what was appended) holds the new key after them and replays to exactly the in-memory registry |
| Registry.FailedRotationKeepsInStep | key_registry.go:303-327 | a failed rotation leaves the file unchanged and memory still in step with it, but nextKeyID is above every id in the file, so memory is no longer the file's replay |

## Left out

- OpenKeyRegistry, Close and the file plumbing of WriteKeyRegistry are not modelled. That plumbing is OpenTruncFile, fp.Close, os.Rename and syncDir. `Registry.WriteKeyRegistry` returns the byte image and takes the success of the final write as a parameter.
- The RWMutex is not modelled: the registry is modelled single-threaded.
- AES, the CRC-32C table and the protobuf code of pb.DataKey are not modelled. They are function parameters, and only the left-inverse property of unmarshalling is assumed.
- Codec.StoreDataKey: does not model a failing `k.Marshal()`, because the marshaller is a total function in the model.
- Error wrapping (y.Wrapf) and error texts are not modelled. Errors are the constructors of `Errors.Error`.
- Cipher.XORBlock: a wrong IV length makes cipher.NewCTR panic in Go; the model returns the error IvLengthPanic instead.
- Cipher.GenerateIV: on a failed random read Go also returns the partly filled buffer; the model returns only the error, which is all callers use.
- Cipher.XORReader: a wrong IV length makes cipher.NewCTR (y/encrypt.go:45) panic; the model returns the error IvLengthPanic instead. A failing `out.Write` may already have written part of the chunk; the model counts none of that chunk in `written`.
- Cipher.XORReader: requires the reader to end with a call that reports EOF or an error, and no call to deliver more than the 1024-byte buffer holds; a reader that never ends is not modelled.
- Registry.KeyRegistry.LatestDataKey: the clock is one reading `now` in Unix nanoseconds, used for both `time.Since` and `time.Now().Unix()`. The saturation of time.Duration and int64 overflow in the time arithmetic are not modelled.
- Registry.KeyRegistry.Rotate: a failed write is modelled as leaving the file unchanged; a partial write that still reports an error is not modelled. A registry opened read-only has no file, and its failed write is the `writeOk == false` case.
- Registry.WriteKeyRegistry: with a storage key set, a key whose IV is not one block long makes cipher.NewCTR panic inside storeDataKey (with no storage key, storeDataKey returns before XORBlock, key_registry.go:345); the model returns IvLengthPanic instead, and, as in Go, nothing is assigned to that key.
- Registry.WriteKeyRegistry: Go's map iteration order is not modelled. It is the parameter `order`, any listing of the map's ids.
- The `y.Check` panics on bytes.Buffer writes are not modelled, because the model's buffer writes cannot fail.
- RegistryFile.FileRead: follows os.File.Read on a regular file. A short read is not an error, EOF comes only with zero bytes, and one read returns at most 2^30 bytes. Another I/O error is a fault at a chosen offset. Other reader behaviours are not modelled.
- The round-trip lemmas require every payload to be at most 2^30 bytes long (`Codec.AllFramable`). A longer payload is cut short by the single read of Next (`RegistryFile.NextOnOversizedRecord`), and one of 2^32 bytes or more also wraps in the length field (`Bytes.LengthField`); neither reads back.

## Findings

| source | as written | input that shows it | evidently intended | confidence | as-written member | corrected member |
|---|---|---|---|---|---|---|
| y/encrypt.go:59 | `out.Write(bufIn[:bytesRead])` writes the bytes read; the transformed bytes in `bufOut` are never used | any reader delivering one byte `b` at an offset whose keystream byte `k` is not zero: the writer receives `b`, not `b ^ k` | write `bufOut[:bytesRead]`, so that the output is XORBlock of the input | high, not executed | Cipher.PlaintextIsNotCiphertext | Cipher.XORReaderFixed |
| key_registry.go:203 | `kr.dataKeys[kr.nextKeyID] = dk` stores each record under the running maximum id | a registry file holding key 2 and then key 1, which WriteKeyRegistry's map range may produce, reads back as the map {2: key 1}, and key 2 is lost | `kr.dataKeys[dk.KeyId] = dk` | medium, not executed | KeyReplay.ReplayOutOfOrderLosesKey | KeyReplay.ReplayByIdRebuilds |

=== FILE: bytes.dfy ===
/**
 * Bytes, Go's fixed-width integers and the big-endian 32-bit encoding used by
 * the registry's record headers (encoding/binary's BigEndian.PutUint32 and
 * BigEndian.Uint32).
 */
module Bytes {

  type byte = bv8

  /** Go's uint16, uint32 and uint64. */
  type u16 = x: int | 0 <= x < 0x1_0000
  type u32 = x: int | 0 <= x < 0x1_0000_0000
  type u64 = x: int | 0 <= x < 0x1_0000_0000_0000_0000

  const TwoTo32: nat := 0x1_0000_0000
  const TwoTo64: nat := 0x1_0000_0000_0000_0000
  const MaxU64: u64 := 0xFFFF_FFFF_FFFF_FFFF

  /** `x++` on a uint64: wraps to 0 after the largest value. */
  function Inc64(x: u64): (r: u64)
    ensures x < MaxU64 ==> r == x + 1
    ensures x == MaxU64 ==> r == 0
  {
    (x + 1) % TwoTo64
  }

  /** `uint32(n)`: Go's conversion of a length to uint32 keeps the low 32 bits. */
  function LengthField(n: nat): (r: u32)
    ensures n < TwoTo32 ==> r == n
  {
    n % TwoTo32
  }

  /** The contents of `make([]byte, n)`. */
  function Zeros(n: nat): (r: seq<byte>)
    ensures |r| == n
    ensures forall i :: 0 <= i < n ==> r[i] == 0
  {
    seq(n, _ => 0)
  }

  /** Adding one to a byte below 255 adds one to its value. */
  lemma ByteSucc(b: byte)
    requires (b as int) < 0xFF
    ensures (b + 1) as int == b as int + 1
  {
  }

  /**
   * Go's `byte(n)` for `n` below 256: the byte whose value is `n`, built by
   * counting up from zero so that only byte-to-integer conversions occur in
   * its proof.
   */
  function ToByte(n: int): (b: byte)
    requires 0 <= n < 0x100
    ensures FromByte(b) == n
    decreases n
  {
    if n == 0 then 0 else
      var prev := ToByte(n - 1);
      ByteSucc(prev);
      prev + 1
  }

  function FromByte(b: byte): (n: int)
    ensures 0 <= n < 0x100
  {
    b as int
  }

  lemma ByteBack(v: byte)
    ensures ToByte(FromByte(v)) == v
  {
    assert FromByte(ToByte(FromByte(v))) == FromByte(v);
  }

  lemma DivModSplit8(hi: int, lo: int)
    requires 0 <= lo < 0x100
    ensures (hi * 0x100 + lo) / 0x100 == hi && (hi * 0x100 + lo) % 0x100 == lo
  {
  }

  lemma DivModSplit16(hi: int, lo: int)
    requires 0 <= lo < 0x1_0000
    ensures (hi * 0x1_0000 + lo) / 0x1_0000 == hi && (hi * 0x1_0000 + lo) % 0x1_0000 == lo
  {
  }

  function Be16(x: u16): (r: seq<byte>)
    ensures |r| == 2
  {
    [ToByte(x / 0x100), ToByte(x % 0x100)]
  }

  function Be16Value(b: seq<byte>): u16
    requires |b| == 2
  {
    FromByte(b[0]) * 0x100 + FromByte(b[1])
  }

  /** binary.BigEndian.PutUint32: the most significant byte first. */
  function Be32(x: u32): (r: seq<byte>)
    ensures |r| == 4
  {
    Be16(x / 0x1_0000) + Be16(x % 0x1_0000)
  }

  /** binary.BigEndian.Uint32. */
  function Be32Value(b: seq<byte>): u32
    requires |b| == 4
  {
    Be16Value(b[..2]) * 0x1_0000 + Be16Value(b[2..])
  }

  lemma Be16RoundTrip(x: u16)
    ensures Be16Value(Be16(x)) == x
  {
  }

  /** The encoding of `hi * 256 + lo` is the bytes `hi`, `lo`. */
  lemma Be16OfBytes(hi: int, lo: int)
    requires 0 <= hi < 0x100 && 0 <= lo < 0x100
    ensures Be16(hi * 0x100 + lo) == [ToByte(hi), ToByte(lo)]
  {
    DivModSplit8(hi, lo);
  }

  lemma Be16Surjective(bs: seq<byte>)
    requires |bs| == 2
    ensures Be16(Be16Value(bs)) == bs
  {
    var hi, lo := FromByte(bs[0]), FromByte(bs[1]);
    Be16OfBytes(hi, lo);
    assert Be16Value(bs) == hi * 0x100 + lo;
    ByteBack(bs[0]);
    ByteBack(bs[1]);
    assert bs == [bs[0], bs[1]];
  }

  /** Decoding an encoded uint32 gives it back. */
  lemma Be32RoundTrip(x: u32)
    ensures Be32Value(Be32(x)) == x
  {
    var e := Be32(x);
    assert e[..2] == Be16(x / 0x1_0000) && e[2..] == Be16(x % 0x1_0000);
    Be16RoundTrip(x / 0x1_0000);
    Be16RoundTrip(x % 0x1_0000);
  }

  /** Every 4-byte string is the encoding of the value it decodes to. */
  lemma Be32Surjective(bs: seq<byte>)
    requires |bs| == 4
    ensures Be32(Be32Value(bs)) == bs
  {
    var hi: int, lo: int := Be16Value(bs[..2]), Be16Value(bs[2..]);
    DivModSplit16(hi, lo);
    var x := Be32Value(bs);
    assert x == hi * 0x1_0000 + lo;
    assert x / 0x1_0000 == hi && x % 0x1_0000 == lo;
    Be16Surjective(bs[..2]);
    Be16Surjective(bs[2..]);
    assert Be32(x) == Be16(hi) + Be16(lo);
    assert bs == bs[..2] + bs[2..];
  }
}

=== FILE: cipher.dfy ===
/**
 * The stream-cipher helpers of y/encrypt.go: AES (FIPS 197) in counter mode
 * (section 6.5 of NIST SP 800-38A), seen as XOR with a keystream.
 *
 * AES itself is not modelled: a `Keystream` gives, for a key, an initial
 * counter block (the IV) and an offset, the keystream byte at that offset.
 * Counter mode is exactly "ciphertext byte i = plaintext byte i XOR keystream
 * byte i", which is all the registry relies on.
 */
module Cipher {
  import opened Bytes
  import opened Wrappers
  import opened Errors

  /** The CTR keystream: byte `i` of the stream AES produces from `key` and `iv`. */
  type Keystream = (seq<byte>, seq<byte>, nat) -> byte

  /** aes.BlockSize. */
  const BlockSize: nat := 16

  /** Key lengths aes.NewCipher accepts (AES-128, AES-192, AES-256). */
  predicate ValidKeyLength(key: seq<byte>) {
    |key| == 16 || |key| == 24 || |key| == 32
  }

  /** `src` XORed with the keystream, starting `offset` bytes into the stream. */
  function XorAt(ks: Keystream, key: seq<byte>, iv: seq<byte>, src: seq<byte>, offset: nat): (r: seq<byte>)
    ensures |r| == |src|
  {
    seq(|src|, i requires 0 <= i < |src| => src[i] ^ ks(key, iv, offset + i))
  }

  /** Applying the same stretch of keystream twice restores the input. */
  lemma XorAtInvolution(ks: Keystream, key: seq<byte>, iv: seq<byte>, src: seq<byte>, offset: nat)
    ensures XorAt(ks, key, iv, XorAt(ks, key, iv, src, offset), offset) == src
  {
    var once := XorAt(ks, key, iv, src, offset);
    var twice := XorAt(ks, key, iv, once, offset);
    forall i | 0 <= i < |src|
      ensures twice[i] == src[i]
    {
      assert twice[i] == (src[i] ^ ks(key, iv, offset + i)) ^ ks(key, iv, offset + i);
    }
  }

  /**
   * Keystream continuity: XORing `a + b` from `offset` is XORing `a` from
   * `offset` and then `b` from where `a` stopped.
   */
  lemma XorAtSplit(ks: Keystream, key: seq<byte>, iv: seq<byte>, a: seq<byte>, b: seq<byte>, offset: nat)
    ensures XorAt(ks, key, iv, a + b, offset) == XorAt(ks, key, iv, a, offset) + XorAt(ks, key, iv, b, offset + |a|)
  {
    var whole := XorAt(ks, key, iv, a + b, offset);
    var parts := XorAt(ks, key, iv, a, offset) + XorAt(ks, key, iv, b, offset + |a|);
    forall i | 0 <= i < |a + b|
      ensures whole[i] == parts[i]
    {
      if i >= |a| {
        assert (a + b)[i] == b[i - |a|];
        assert offset + i == (offset + |a|) + (i - |a|);
      }
    }
  }

  /**
   * XORBlock (y/encrypt.go:29-38): a fresh slice of the same length as `src`,
   * holding `src` XORed with the keystream of (`key`, `iv`) from offset 0.
   * An invalid key length is the error aes.NewCipher returns; an IV that is
   * not one block long makes cipher.NewCTR panic, modelled as an error.
   */
  function XORBlock(ks: Keystream, src: seq<byte>, key: seq<byte>, iv: seq<byte>): (r: Result<seq<byte>, Error>)
    ensures r.Ok? <==> ValidKeyLength(key) && |iv| == BlockSize
    ensures !ValidKeyLength(key) ==> r == Err(KeySizeError(|key|))
    ensures r.Ok? ==> |r.value| == |src|
  {
    if !ValidKeyLength(key) then Err(KeySizeError(|key|))
    else if |iv| != BlockSize then Err(IvLengthPanic)
    else Ok(XorAt(ks, key, iv, src, 0))
  }

  /** Counter mode byte by byte: byte `i` of the output is byte `i` of `src` XOR keystream byte `i`. */
  lemma XORBlockBytes(ks: Keystream, src: seq<byte>, key: seq<byte>, iv: seq<byte>)
    requires XORBlock(ks, src, key, iv).Ok?
    ensures forall i :: 0 <= i < |src| ==> XORBlock(ks, src, key, iv).value[i] == src[i] ^ ks(key, iv, i)
  {
  }

  /** "Can be used for both encryption and decryption": XORBlock undoes itself. */
  lemma XORBlockSelfInverse(ks: Keystream, src: seq<byte>, key: seq<byte>, iv: seq<byte>)
    requires XORBlock(ks, src, key, iv).Ok?
    ensures XORBlock(ks, XORBlock(ks, src, key, iv).value, key, iv) == Ok(src)
  {
    XorAtInvolution(ks, key, iv, src, 0);
  }

  /** The outcome of one `crypto/rand` read: an endless supply of random bytes, or a failure. */
  datatype Entropy = Entropy(draw: nat -> byte) | EntropyFailure

  /** `rand.Read` into a fresh `n`-byte buffer. */
  function RandomBytes(e: Entropy, n: nat): (r: Result<seq<byte>, Error>)
    ensures r.Ok? <==> e.Entropy?
    ensures r.Ok? ==> |r.value| == n
    ensures r.Err? ==> r.error == RandomSourceError
  {
    match e
    case Entropy(draw) => Ok(seq(n, i requires 0 <= i < n => draw(i)))
    case EntropyFailure => Err(RandomSourceError)
  }

  /** GenerateIV (y/encrypt.go:72-75): one AES block of random bytes. */
  function GenerateIV(e: Entropy): (r: Result<seq<byte>, Error>)
    ensures r.Ok? <==> e.Entropy?
    ensures r.Ok? ==> |r.value| == BlockSize
  {
    RandomBytes(e, BlockSize)
  }

  /** What one `in.Read(bufIn)` call reports. */
  datatype ReadStatus = ReadOk | ReadEOF | ReadFault

  /** One `in.Read` call: the bytes it delivered and the status it reported. */
  datatype Chunk = Chunk(data: seq<byte>, status: ReadStatus)

  /** The size of XORReader's buffers bufIn and bufOut. */
  const StreamBufferSize: nat := 1024

  /**
   * The io.Reader contract for a reader driven with a 1024-byte buffer: no call
   * returns more than the buffer holds, and the script ends with a call that
   * reports EOF or an error (otherwise XORReader would not return).
   */
  predicate ReaderScript(chunks: seq<Chunk>) {
    && |chunks| > 0
    && chunks[|chunks| - 1].status != ReadOk
    && forall i :: 0 <= i < |chunks| ==> |chunks[i].data| <= StreamBufferSize
  }

  /** The bytes a call hands on to the transformation: none when the read failed. */
  function Delivered(c: Chunk): seq<byte> {
    if c.status == ReadFault then [] else c.data
  }

  /** Everything the first `n` calls hand on, in order. */
  function Stream(chunks: seq<Chunk>, n: nat): seq<byte>
    requires n <= |chunks|
  {
    if n == 0 then [] else Stream(chunks, n - 1) + Delivered(chunks[n - 1])
  }

  /**
   * One successful read call in XORReader's loop: the stream so far grows by
   * the chunk, and the keystream continues where the previous chunk stopped.
   */
  lemma ChunkStep(ks: Keystream, key: seq<byte>, iv: seq<byte>, chunks: seq<Chunk>, calls: nat, out: seq<byte>)
    requires calls < |chunks| && chunks[calls].status != ReadFault
    requires out == XorAt(ks, key, iv, chunks[calls].data, |Stream(chunks, calls)|)
    ensures Stream(chunks, calls + 1) == Stream(chunks, calls) + chunks[calls].data
    ensures XorAt(ks, key, iv, Stream(chunks, calls + 1), 0) == XorAt(ks, key, iv, Stream(chunks, calls), 0) + out
  {
    XorAtSplit(ks, key, iv, Stream(chunks, calls), chunks[calls].data, 0);
  }

  /**
   * XORReader's loop ends at call `calls` (counted from 1): every earlier call
   * read a full chunk and wrote it, and this one reported EOF or an error, or
   * its write failed.
   */
  predicate StopsAt(chunks: seq<Chunk>, failingWrites: set<nat>, calls: nat) {
    && 0 < calls <= |chunks|
    && (forall j :: 0 <= j < calls - 1 ==> chunks[j].status == ReadOk && j !in failingWrites)
    && (chunks[calls - 1].status != ReadOk || calls - 1 in failingWrites)
  }

  /** The error XORReader returns after `calls` read calls, as the source decides it. */
  function StreamError(chunks: seq<Chunk>, calls: nat, failingWrites: set<nat>): Option<Error>
    requires 0 < calls <= |chunks|
  {
    if chunks[calls - 1].status == ReadFault then Some(ReadFailed(false))
    else if calls - 1 in failingWrites then Some(WriteFailed)
    else None
  }

  /** `in.Read(buf)` delivering `data`: the first |data| bytes of `buf` are overwritten. */
  method ReadInto(buf: array<byte>, data: seq<byte>)
    requires |data| <= buf.Length
    modifies buf
    ensures buf[..|data|] == data
  {
    forall j | 0 <= j < |data| {
      buf[j] := data[j];
    }
  }

  /**
   * `stream.XORKeyStream(dst[:n], src[:n])` on a stream that has already
   * produced `offset` bytes.
   */
  method XORKeyStream(ks: Keystream, key: seq<byte>, iv: seq<byte>, offset: nat, dst: array<byte>, src: array<byte>, n: nat)
    requires n <= dst.Length && n <= src.Length && dst != src
    modifies dst
    ensures dst[..n] == XorAt(ks, key, iv, src[..n], offset)
    ensures dst[n..] == old(dst[n..])
  {
    forall j | 0 <= j < n {
      dst[j] := src[j] ^ ks(key, iv, offset + j);
    }
  }

  /**
   * XORReader (y/encrypt.go:40-69) as written. `chunks` are the successive
   * results of `in.Read`; write call number `i` (0-based) fails exactly when
   * `i` is in `failingWrites`. The keystream is created once, before the loop,
   * so chunk after chunk continues the same stream (`transformed`, the bytes
   * placed in bufOut). What reaches the writer, though, is bufIn: the
   * concatenated output equals the concatenated input.
   */
  method XORReader(ks: Keystream, chunks: seq<Chunk>, failingWrites: set<nat>, key: seq<byte>, iv: seq<byte>)
    returns (written: seq<byte>, calls: nat, err: Option<Error>, ghost transformed: seq<byte>)
    requires ReaderScript(chunks)
    ensures !ValidKeyLength(key) ==> calls == 0 && written == [] && err == Some(KeySizeError(|key|))
    ensures ValidKeyLength(key) && |iv| != BlockSize ==> calls == 0 && written == [] && err == Some(IvLengthPanic)
    ensures ValidKeyLength(key) && |iv| == BlockSize ==>
      && StopsAt(chunks, failingWrites, calls)
      && err == StreamError(chunks, calls, failingWrites)
      && transformed == XorAt(ks, key, iv, Stream(chunks, calls), 0)
      && written == (if err == Some(WriteFailed) then Stream(chunks, calls - 1) else Stream(chunks, calls))
  {
    written, calls, transformed := [], 0, [];
    if !ValidKeyLength(key) {
      return written, calls, Some(KeySizeError(|key|)), transformed;
    }
    if |iv| != BlockSize {
      return written, calls, Some(IvLengthPanic), transformed;
    }
    var bufIn := new byte[StreamBufferSize];
    var bufOut := new byte[StreamBufferSize];
    var offset: nat := 0;  // how far the CTR stream has advanced
    while true
      invariant calls < |chunks|
      invariant forall j :: 0 <= j < calls ==> chunks[j].status == ReadOk && j !in failingWrites
      invariant offset == |Stream(chunks, calls)|
      invariant transformed == XorAt(ks, key, iv, Stream(chunks, calls), 0)
      invariant written == Stream(chunks, calls)
      decreases |chunks| - calls
    {
      // bytesRead, err := in.Read(bufIn)
      var c := chunks[calls];
      var bytesRead := |c.data|;
      ReadInto(bufIn, c.data);
      if c.status == ReadFault {
        return written, calls + 1, Some(ReadFailed(false)), transformed;
      }
      // stream.XORKeyStream(bufOut[:bytesRead], bufIn[:bytesRead])
      XORKeyStream(ks, key, iv, offset, bufOut, bufIn, bytesRead);
      ChunkStep(ks, key, iv, chunks, calls, bufOut[..bytesRead]);
      calls := calls + 1;
      transformed := transformed + bufOut[..bytesRead];
      offset := offset + bytesRead;
      // out.Write(bufIn[:bytesRead])
      if calls - 1 in failingWrites {
        return written, calls, Some(WriteFailed), transformed;
      }
      written := written + bufIn[..bytesRead];
      if c.status == ReadEOF {
        return written, calls, None, transformed;
      }
    }
  }

  /**
   * XORReader with y/encrypt.go:59 writing bufOut, the transformed bytes: the
   * writer then receives exactly what one XORBlock call over the whole input
   * would produce, with no keystream restart at chunk boundaries.
   */
  method XORReaderFixed(ks: Keystream, chunks: seq<Chunk>, failingWrites: set<nat>, key: seq<byte>, iv: seq<byte>)
    returns (written: seq<byte>, calls: nat, err: Option<Error>)
    requires ReaderScript(chunks)
    ensures !ValidKeyLength(key) ==> calls == 0 && written == [] && err == Some(KeySizeError(|key|))
    ensures ValidKeyLength(key) && |iv| != BlockSize ==> calls == 0 && written == [] && err == Some(IvLengthPanic)
    ensures ValidKeyLength(key) && |iv| == BlockSize ==>
      && StopsAt(chunks, failingWrites, calls)
      && err == StreamError(chunks, calls, failingWrites)
      && written == XORBlock(ks, if err == Some(WriteFailed) then Stream(chunks, calls - 1) else Stream(chunks, calls), key, iv).value
  {
    if !ValidKeyLength(key) {
      return [], 0, Some(KeySizeError(|key|));
    }
    if |iv| != BlockSize {
      return [], 0, Some(IvLengthPanic);
    }
    written, calls, err := EncryptChunks(ks, chunks, failingWrites, key, iv);
  }

  /** The loop of XORReaderFixed, once the key and the IV have been accepted. */
  method EncryptChunks(ks: Keystream, chunks: seq<Chunk>, failingWrites: set<nat>, key: seq<byte>, iv: seq<byte>)
    returns (written: seq<byte>, calls: nat, err: Option<Error>)
    requires ReaderScript(chunks)
    ensures StopsAt(chunks, failingWrites, calls)
    ensures err == StreamError(chunks, calls, failingWrites)
    ensures written == XorAt(ks, key, iv, if err == Some(WriteFailed) then Stream(chunks, calls - 1) else Stream(chunks, calls), 0)
  {
    written, calls := [], 0;
    var bufIn := new byte[StreamBufferSize];
    var bufOut := new byte[StreamBufferSize];
    var offset: nat := 0;
    while true
      invariant calls < |chunks|
      invariant forall j :: 0 <= j < calls ==> chunks[j].status == ReadOk && j !in failingWrites
      invariant offset == |Stream(chunks, calls)|
      invariant written == XorAt(ks, key, iv, Stream(chunks, calls), 0)
      decreases |chunks| - calls
    {
      var c := chunks[calls];
      var bytesRead := |c.data|;
      ReadInto(bufIn, c.data);
      if c.status == ReadFault {
        return written, calls + 1, Some(ReadFailed(false));
      }
      XORKeyStream(ks, key, iv, offset, bufOut, bufIn, bytesRead);
      ChunkStep(ks, key, iv, chunks, calls, bufOut[..bytesRead]);
      calls := calls + 1;
      offset := offset + bytesRead;
      if calls - 1 in failingWrites {
        return written, calls, Some(WriteFailed);
      }
      written := written + bufOut[..bytesRead];
      if c.status == ReadEOF {
        return written, calls, None;
      }
    }
  }

  /**
   * What the defect costs: wherever the keystream is not zero, the plaintext
   * XORReader emits differs from the ciphertext XORBlock computes.
   */
  lemma PlaintextIsNotCiphertext(ks: Keystream, src: seq<byte>, key: seq<byte>, iv: seq<byte>, i: nat)
    requires XORBlock(ks, src, key, iv).Ok?
    requires i < |src| && ks(key, iv, i) != 0
    ensures XORBlock(ks, src, key, iv).value != src
  {
    var k := ks(key, iv, i);
    XORBlockBytes(ks, src, key, iv);
    assert XORBlock(ks, src, key, iv).value[i] == src[i] ^ k;
    assert src[i] ^ k != src[i];
  }
}

=== FILE: codec.dfy ===
/**
 * The record codec of key_registry.go: how one data key is framed in the
 * registry file (storeDataKey) and what a frame carries.
 *
 * A frame is
 *   4 bytes  big-endian length of the payload,
 *   4 bytes  big-endian CRC-32C (Castagnoli) of the payload,
 *   payload  the protobuf encoding of the data key, whose key material is
 *            encrypted under the storage key and the key's own IV when a
 *            storage key is configured.
 */
module Codec {
  import opened Bytes
  import opened Wrappers
  import opened Errors
  import opened Cipher

  /** pb.DataKey: one data-key version, with its key material in plaintext when held in memory. */
  datatype DataKey = DataKey(keyId: u64, data: seq<byte>, iv: seq<byte>, createdAt: int)

  /**
   * The foreign code the registry calls: the AES-CTR keystream, the CRC-32C
   * checksum over y.CastagnoliCrcTable, and the generated protobuf
   * (un)marshaller of pb.DataKey.
   */
  datatype Primitives = Primitives(
    keystream: Keystream,
    crc32c: seq<byte> -> u32,
    marshal: DataKey -> seq<byte>,
    unmarshal: seq<byte> -> Option<DataKey>)

  /** What the round trips rely on from protobuf: unmarshalling undoes marshalling. */
  ghost predicate UnmarshalInvertsMarshal(p: Primitives) {
    forall k :: p.unmarshal(p.marshal(k)) == Some(k)
  }

  /** The `xor` closure of storeDataKey succeeds: no storage key, or a valid one and a one-block IV. */
  predicate Sealable(storageKey: seq<byte>, k: DataKey) {
    |storageKey| == 0 || (ValidKeyLength(storageKey) && |k.iv| == BlockSize)
  }

  /** The error the `xor` closure returns when it fails. */
  function SealError(storageKey: seq<byte>): Error {
    if !ValidKeyLength(storageKey) then KeySizeError(|storageKey|) else IvLengthPanic
  }

  /** The data key as it is marshalled for disk: key material XORed under (storage key, key IV). */
  function Sealed(ks: Keystream, storageKey: seq<byte>, k: DataKey): (r: DataKey)
    requires Sealable(storageKey, k)
    ensures r.keyId == k.keyId && r.iv == k.iv && r.createdAt == k.createdAt
    ensures |r.data| == |k.data|
    ensures |storageKey| == 0 ==> r == k
  {
    if |storageKey| == 0 then k else k.(data := XORBlock(ks, k.data, storageKey, k.iv).value)
  }

  /** Decrypting a sealed key with the same storage key gives the plaintext key back. */
  lemma UnsealSealed(ks: Keystream, storageKey: seq<byte>, k: DataKey)
    requires Sealable(storageKey, k) && |storageKey| > 0
    ensures XORBlock(ks, Sealed(ks, storageKey, k).data, storageKey, k.iv) == Ok(k.data)
  {
    XORBlockSelfInverse(ks, k.data, storageKey, k.iv);
  }

  /** One frame around a payload: length, checksum, payload. */
  function Frame(p: Primitives, payload: seq<byte>): (r: seq<byte>)
    ensures |r| == 8 + |payload|
    ensures r[8..] == payload
  {
    Be32(LengthField(|payload|)) + Be32(p.crc32c(payload)) + payload
  }

  /**
   * What `*k` holds after a failed storeDataKey. When aes.NewCipher rejects
   * the storage key, `k.Data, err = y.XORBlock(...)` has already stored the
   * nil result; with a valid storage key the only failure is the panic of
   * cipher.NewCTR on an IV that is not one block long, which assigns nothing.
   */
  function LeftByFailedStore(storageKey: seq<byte>, k: DataKey): (r: DataKey)
    ensures r.keyId == k.keyId && r.iv == k.iv && r.createdAt == k.createdAt
  {
    if ValidKeyLength(storageKey) then k else k.(data := [])
  }

  /**
   * storeDataKey (key_registry.go:341-370). `buf` is the bytes.Buffer before
   * the call, `buf'` after it; `k'` is what `*k` holds afterwards, since the
   * source encrypts k.Data in place, marshals, and decrypts it again.
   */
  method StoreDataKey(p: Primitives, buf: seq<byte>, storageKey: seq<byte>, k: DataKey)
    returns (buf': seq<byte>, k': DataKey, err: Option<Error>)
    ensures err.None? <==> Sealable(storageKey, k)
    ensures err.None? ==> k' == k
    ensures err.None? ==>
      var payload := p.marshal(Sealed(p.keystream, storageKey, k));
      && buf' == buf + Be32(LengthField(|payload|)) + Be32(p.crc32c(payload)) + payload
      && buf' == buf + RecordBytes(p, storageKey, k)
    ensures err.Some? ==> err == Some(SealError(storageKey)) && buf' == buf
    ensures err.Some? ==> k' == LeftByFailedStore(storageKey, k)
  {
    buf', k' := buf, k;
    // xor(): encrypt the key material in place.
    if |storageKey| > 0 {
      var enc := XORBlock(p.keystream, k'.data, storageKey, k'.iv);
      if enc.Err? {
        if enc.error.KeySizeError? {
          // `k.Data, err = y.XORBlock(...)` stores the nil result before returning.
          k' := k'.(data := []);
        }
        return buf', k', Some(enc.error);
      }
      k' := k'.(data := enc.value);
    }
    var data := p.marshal(k');
    buf' := buf' + Be32(LengthField(|data|)) + Be32(p.crc32c(data));
    buf' := buf' + data;
    // xor() again: the same key and IV, so this decrypts and cannot fail.
    if |storageKey| > 0 {
      var dec := XORBlock(p.keystream, k'.data, storageKey, k'.iv);
      UnsealSealed(p.keystream, storageKey, k);
      k' := k'.(data := dec.value);
    }
    err := None;
  }

  /** The payload storeDataKey frames for `k`. */
  function Payload(p: Primitives, storageKey: seq<byte>, k: DataKey): seq<byte>
    requires Sealable(storageKey, k)
  {
    p.marshal(Sealed(p.keystream, storageKey, k))
  }

  /**
   * The most bytes one read of an os.File returns: Go's internal/poll cuts
   * every read of a stream to 2^30 bytes (maxRW).
   */
  const MaxRW: nat := 0x4000_0000

  /**
   * `k` can be stored, and its payload is short enough that the length field
   * holds its true length (no uint32 wrap) and one read returns all of it.
   */
  predicate Framable(p: Primitives, storageKey: seq<byte>, k: DataKey) {
    Sealable(storageKey, k) && |Payload(p, storageKey, k)| <= MaxRW
  }

  /** The frame of a storable key: what StoreDataKey appends for it. */
  function RecordBytes(p: Primitives, storageKey: seq<byte>, k: DataKey): seq<byte>
    requires Sealable(storageKey, k)
  {
    Frame(p, Payload(p, storageKey, k))
  }

  predicate AllSealable(storageKey: seq<byte>, rs: seq<DataKey>) {
    forall i :: 0 <= i < |rs| ==> Sealable(storageKey, rs[i])
  }

  /** Every key of `rs` can be stored and framed without a wrapped length field. */
  predicate AllFramable(p: Primitives, storageKey: seq<byte>, rs: seq<DataKey>) {
    AllSealable(storageKey, rs) && forall i :: 0 <= i < |rs| ==> Framable(p, storageKey, rs[i])
  }

  /** The byte strings of `parts`, back to back. */
  function Flatten(parts: seq<seq<byte>>): seq<byte>
    decreases |parts|
  {
    if parts == [] then [] else Flatten(parts[..|parts| - 1]) + parts[|parts| - 1]
  }

  lemma {:induction false} FlattenFirst(parts: seq<seq<byte>>)
    requires parts != []
    ensures Flatten(parts) == parts[0] + Flatten(parts[1..])
    decreases |parts|
  {
    var init, rest := parts[..|parts| - 1], parts[1..];
    if |parts| == 1 {
      assert init == [] && rest == [];
    } else {
      FlattenFirst(init);
      assert init[0] == parts[0];
      assert rest[..|rest| - 1] == init[1..];
    }
  }

  /** The frame of each key of `rs`, in the order given. */
  function Frames(p: Primitives, storageKey: seq<byte>, rs: seq<DataKey>): (r: seq<seq<byte>>)
    requires AllSealable(storageKey, rs)
    ensures |r| == |rs|
    ensures forall i :: 0 <= i < |rs| ==> r[i] == RecordBytes(p, storageKey, rs[i])
  {
    seq(|rs|, i requires 0 <= i < |rs| => RecordBytes(p, storageKey, rs[i]))
  }

  /** What WriteKeyRegistry writes after the header: the frames of `rs`, back to back. */
  function EncodeAll(p: Primitives, storageKey: seq<byte>, rs: seq<DataKey>): seq<byte>
    requires AllSealable(storageKey, rs)
  {
    Flatten(Frames(p, storageKey, rs))
  }

  /** The frames of a non-empty list are the first frame followed by the frames of the rest. */
  lemma EncodeAllFirst(p: Primitives, storageKey: seq<byte>, rs: seq<DataKey>)
    requires AllSealable(storageKey, rs) && rs != []
    ensures EncodeAll(p, storageKey, rs) == RecordBytes(p, storageKey, rs[0]) + EncodeAll(p, storageKey, rs[1..])
  {
    var frames := Frames(p, storageKey, rs);
    FlattenFirst(frames);
    assert frames[1..] == Frames(p, storageKey, rs[1..]);
  }

  /** Appending a key appends its frame. */
  lemma EncodeAllLast(p: Primitives, storageKey: seq<byte>, rs: seq<DataKey>, k: DataKey)
    requires AllSealable(storageKey, rs) && Sealable(storageKey, k)
    ensures AllSealable(storageKey, rs + [k])
    ensures EncodeAll(p, storageKey, rs + [k]) == EncodeAll(p, storageKey, rs) + RecordBytes(p, storageKey, k)
  {
    var frames := Frames(p, storageKey, rs + [k]);
    assert frames[..|rs|] == Frames(p, storageKey, rs);
  }
}

=== FILE: key_registry.dfy ===
/**
 * The KeyRegistry of key_registry.go: the data keys in memory, their lookup
 * by id, key rotation (latestDataKey), and building the registry from a file
 * (readKeyRegistry) and writing a whole registry file (WriteKeyRegistry).
 */
module Registry {
  import opened Bytes
  import opened Wrappers
  import opened Errors
  import opened Cipher
  import opened Codec
  import opened RegistryFile
  import opened KeyReplay

  const NanosPerSecond: nat := 1_000_000_000

  /**
   * The options the registry reads: the storage key (empty when encryption is
   * off) and EncryptionKeyRotationDuration, a time.Duration in nanoseconds.
   */
  datatype Options = Options(encryptionKey: seq<byte>, rotationPeriod: int)

  /**
   * KeyRegistry (key_registry.go:46-53). `file` is what has been appended
   * through its file handle since the registry was built: the registry file
   * on disk is the contents read when it was opened, followed by `file`.
   */
  class KeyRegistry {
    var dataKeys: map<u64, DataKey>
    /** Unix seconds. */
    var lastCreated: int
    var nextKeyID: u64
    var file: seq<byte>
    const opt: Options
    const prims: Primitives

    /** The registry's in-memory fields, as the value replay computes. */
    function Abstract(): (s: Snapshot)
      reads this
      ensures s.dataKeys == dataKeys && s.nextKeyID == nextKeyID && s.lastCreated == lastCreated
    {
      Snapshot(dataKeys, nextKeyID, lastCreated)
    }

    /** newKeyRegistry (key_registry.go:56-62): no keys, next id 0. */
    constructor (opt: Options, p: Primitives)
      ensures Abstract() == Empty && file == []
      ensures this.opt == opt && prims == p
    {
      dataKeys, lastCreated, nextKeyID, file := map[], 0, 0, [];
      this.opt, prims := opt, p;
    }

    /**
     * KeyRegistry.dataKey (key_registry.go:272-282): id 0 means plaintext (no
     * key); any other id must name a stored key, else ErrInvalidDataKeyID.
     */
    function DataKeyById(id: u64): (r: Result<Option<DataKey>, Error>)
      reads this
      ensures id == 0 ==> r == Ok(None)
      ensures id != 0 ==> (r.Ok? <==> id in dataKeys)
      ensures id != 0 && r.Ok? ==> r.value == Some(dataKeys[id])
      ensures r.Err? ==> r.error == InvalidDataKeyID(id)
    {
      if id == 0 then Ok(None)
      else if id in dataKeys then Ok(Some(dataKeys[id]))
      else Err(InvalidDataKeyID(id))
    }

    /** The body of the loop of readKeyRegistry (key_registry.go:195-203) for one record. */
    method Absorb(dk: DataKey)
      modifies this
      ensures Abstract() == ReplayStep(old(Abstract()), dk) && file == old(file)
    {
      if dk.keyId > nextKeyID {
        nextKeyID := dk.keyId;
      }
      if dk.createdAt > lastCreated {
        lastCreated := dk.createdAt;
      }
      dataKeys := dataKeys[nextKeyID := dk];
    }

    /** Whether latestDataKey rotates at clock reading `now` (Unix nanoseconds). */
    predicate RotationDue(now: int)
      reads this
    {
      now - lastCreated * NanosPerSecond >= opt.rotationPeriod
    }

    /**
     * KeyRegistry.latestDataKey (key_registry.go:287-333). Without a storage
     * key there is no data key. Within the rotation period it returns the key
     * stored under nextKeyID (nil if there is none). Otherwise it advances
     * nextKeyID, draws an IV and key material of the storage key's length,
     * stores the new key through storeDataKey, appends the frame to the
     * registry file and only then records the key in memory; a failure at any
     * of these steps leaves nextKeyID advanced and nothing else changed.
     */
    method LatestDataKey(now: int, ivSource: Entropy, keySource: Entropy, writeOk: bool)
      returns (r: Result<Option<DataKey>, Error>)
      modifies this
      ensures |opt.encryptionKey| == 0 ==> r == Ok(None) && unchanged(this)
      ensures |opt.encryptionKey| > 0 && !old(RotationDue(now)) ==>
        unchanged(this) && r == Ok(if nextKeyID in dataKeys then Some(dataKeys[nextKeyID]) else None)
      ensures |opt.encryptionKey| > 0 && old(RotationDue(now)) ==> Rotated(old(Abstract()), old(file), now, ivSource, keySource, writeOk, r)
    {
      if |opt.encryptionKey| == 0 {
        return Ok(None);
      }
      if now - lastCreated * NanosPerSecond < opt.rotationPeriod {
        return Ok(if nextKeyID in dataKeys then Some(dataKeys[nextKeyID]) else None);
      }
      r := Rotate(now, ivSource, keySource, writeOk);
    }

    /**
     * The outcome of a due rotation, from the registry state `s` and file
     * contents `file0` before it: nextKeyID is advanced in every case; the
     * call succeeds exactly when both random reads succeed, the storage key
     * has a valid AES length and the write succeeds; on success the new key
     * is returned, recorded under its id and appended to the file, and on
     * failure the keys, lastCreated and the file are as before.
     */
    ghost predicate Rotated(s: Snapshot, file0: seq<byte>, now: int, ivSource: Entropy, keySource: Entropy, writeOk: bool,
                            r: Result<Option<DataKey>, Error>)
      reads this
    {
      && nextKeyID == Inc64(s.nextKeyID)
      && (r.Ok? <==> ivSource.Entropy? && keySource.Entropy? && ValidKeyLength(opt.encryptionKey) && writeOk)
      && (!ivSource.Entropy? ==> r == Err(RandomSourceError))
      && (ivSource.Entropy? && !keySource.Entropy? ==> r == Err(RandomSourceError))
      && (ivSource.Entropy? && keySource.Entropy? && !ValidKeyLength(opt.encryptionKey) ==>
            r == Err(KeySizeError(|opt.encryptionKey|)))
      && (ivSource.Entropy? && keySource.Entropy? && ValidKeyLength(opt.encryptionKey) && !writeOk ==>
            r == Err(WriteFailed))
      && (r.Err? ==> dataKeys == s.dataKeys && lastCreated == s.lastCreated && file == file0)
      && (r.Ok? ==>
            var dk := DataKey(nextKeyID, RandomBytes(keySource, |opt.encryptionKey|).value,
                              GenerateIV(ivSource).value, now / NanosPerSecond);
            && r == Ok(Some(dk))
            && dataKeys == s.dataKeys[nextKeyID := dk]
            && lastCreated == dk.createdAt
            && file == file0 + RecordBytes(prims, opt.encryptionKey, dk))
    }

    /** The rotating half of latestDataKey (key_registry.go:303-332). */
    method Rotate(now: int, ivSource: Entropy, keySource: Entropy, writeOk: bool)
      returns (r: Result<Option<DataKey>, Error>)
      requires |opt.encryptionKey| > 0
      modifies this
      ensures Rotated(old(Abstract()), old(file), now, ivSource, keySource, writeOk, r)
    {
      nextKeyID := Inc64(nextKeyID);
      var iv := GenerateIV(ivSource);
      if iv.Err? {
        return Err(iv.error);
      }
      var k := RandomBytes(keySource, |opt.encryptionKey|);
      if k.Err? {
        return Err(k.error);
      }
      var dk := DataKey(nextKeyID, k.value, iv.value, now / NanosPerSecond);
      var buf, stored, err := StoreDataKey(prims, [], opt.encryptionKey, dk);
      if err.Some? {
        return Err(err.value);
      }
      if !writeOk {
        return Err(WriteFailed);
      }
      file := file + buf;
      dk := stored.(data := k.value);
      lastCreated := dk.createdAt;
      dataKeys := dataKeys[nextKeyID := dk];
      r := Ok(Some(dk));
    }
  }

  /**
   * readKeyRegistry (key_registry.go:185-208): check the header, then feed
   * every record the iterator yields to the replay loop. A bad header gives
   * no registry; an error from the iterator is returned together with the
   * registry built from the records before it.
   */
  method ReadKeyRegistry(f: FileImage, opt: Options, p: Primitives)
    returns (kr: KeyRegistry?, err: Option<Error>)
    ensures var h := IsValidRegistry(p.keystream, opt.encryptionKey, f);
      && (h.err.Some? ==> kr == null && err == h.err)
      && (h.err.None? ==>
            var (dks, e) := Parse(p, opt.encryptionKey, f, IterState(h.pos, Zeros(8)));
            && kr != null && fresh(kr) && kr.opt == opt && kr.prims == p && kr.file == []
            && kr.Abstract() == Replay(dks) && err == e)
  {
    var it, herr := NewKeyRegistryIterator(p, f, opt.encryptionKey);
    if herr.Some? {
      return null, herr;
    }
    kr := new KeyRegistry(opt, p);
    var key := opt.encryptionKey;
    ghost var st := it.State();
    ghost var all := Parse(p, key, f, st);
    ghost var seen: seq<DataKey> := [];
    var r := it.Next();
    assert seen + all.0 == all.0;
    ParseAfterNext(p, key, f, st, it.State(), r, seen, all);
    st := it.State();
    while r.Record?
      invariant it.Valid() && fresh(it.lenCrcBuf)
      invariant st == it.State()
      invariant kr.Abstract() == Replay(seen) && kr.file == []
      invariant r.Record? ==> st.pos <= |f.contents|
      invariant r.Record? ==> all == (seen + [r.dk] + Parse(p, key, f, st).0, Parse(p, key, f, st).1)
      invariant !r.Record? ==> all == (seen, if r.Failure? then Some(r.err) else None)
      decreases |f.contents| - st.pos, if r.Record? then 1 else 0
    {
      var dk := r.dk;
      kr.Absorb(dk);
      assert kr.Abstract() == Replay(seen + [dk]) by {
        assert (seen + [dk])[..|seen|] == seen;
      }
      seen := seen + [dk];
      r := it.Next();
      ParseAfterNext(p, key, f, st, it.State(), r, seen, all);
      st := it.State();
    }
    err := if r.Failure? then Some(r.err) else None;
  }

  /** The first `i` keys of `dks` are stored: `buf` is `buf0` followed by their frames. */
  ghost predicate StoredPrefix(p: Primitives, key: seq<byte>, dks: seq<DataKey>, i: nat, buf0: seq<byte>, buf: seq<byte>) {
    i <= |dks| && AllSealable(key, dks[..i]) && buf == buf0 + EncodeAll(p, key, dks[..i])
  }

  /** Storing the next key appends its frame. */
  lemma StoredPrefixGrows(p: Primitives, key: seq<byte>, dks: seq<DataKey>, i: nat, buf0: seq<byte>, buf: seq<byte>, buf': seq<byte>)
    requires StoredPrefix(p, key, dks, i, buf0, buf) && i < |dks| && Sealable(key, dks[i])
    requires buf' == buf + RecordBytes(p, key, dks[i])
    ensures StoredPrefix(p, key, dks, i + 1, buf0, buf')
  {
    assert dks[..i + 1] == dks[..i] + [dks[i]];
    EncodeAllLast(p, key, dks[..i], dks[i]);
  }

  /** A key that cannot be sealed, after keys that could. */
  lemma StoredPrefixStops(p: Primitives, key: seq<byte>, dks: seq<DataKey>, i: nat, buf0: seq<byte>, buf: seq<byte>)
    requires StoredPrefix(p, key, dks, i, buf0, buf) && i < |dks| && !Sealable(key, dks[i])
    ensures !AllSealable(key, dks)
    ensures forall j :: 0 <= j < i ==> Sealable(key, dks[j])
  {
    assert forall j :: 0 <= j < i ==> dks[..i][j] == dks[j];
  }

  /**
   * The loop of WriteKeyRegistry (key_registry.go:250-255): storeDataKey for
   * every key in `order` into the buffer, stopping at the first failure.
   */
  method StoreKeys(reg: KeyRegistry, order: seq<u64>, key: seq<byte>, buf0: seq<byte>)
    returns (buf: seq<byte>, err: Option<Error>)
    requires Enumerates(reg.dataKeys, order)
    modifies reg
    ensures reg.nextKeyID == old(reg.nextKeyID) && reg.lastCreated == old(reg.lastCreated) && reg.file == old(reg.file)
    ensures var dks := InOrder(old(reg.dataKeys), order);
      && (err.None? <==> AllSealable(key, dks))
      && (err.None? ==> reg.dataKeys == old(reg.dataKeys) && buf == buf0 + EncodeAll(reg.prims, key, dks))
    ensures err.Some? ==>
      && err == Some(SealError(key))
      && exists j :: 0 <= j < |order| && !Sealable(key, old(reg.dataKeys)[order[j]])
           && (forall i :: 0 <= i < j ==> Sealable(key, old(reg.dataKeys)[order[i]]))
           && reg.dataKeys == old(reg.dataKeys)[order[j] := LeftByFailedStore(key, old(reg.dataKeys)[order[j]])]
  {
    var p := reg.prims;
    ghost var m := reg.dataKeys;
    ghost var dks := InOrder(m, order);
    buf := buf0;
    var i := 0;
    assert dks[..0] == [];
    while i < |order|
      invariant reg.dataKeys == m && reg.nextKeyID == old(reg.nextKeyID)
      invariant reg.lastCreated == old(reg.lastCreated) && reg.file == old(reg.file)
      invariant i <= |order| && StoredPrefix(p, key, dks, i, buf0, buf)
    {
      var k := reg.dataKeys[order[i]];
      var buf', k', e := StoreDataKey(p, buf, key, k);
      if e.Some? {
        reg.dataKeys := reg.dataKeys[order[i] := k'];
        StoredPrefixStops(p, key, dks, i, buf0, buf);
        return buf, e;
      }
      StoredPrefixGrows(p, key, dks, i, buf0, buf, buf');
      buf := buf';
      i := i + 1;
    }
    assert dks[..i] == dks;
    err := None;
  }

  /**
   * WriteKeyRegistry (key_registry.go:219-270): the bytes of the new registry
   * file, built in memory and written in one call. `order` is the order in
   * which the range over reg.dataKeys visits the keys. A storage key of the
   * wrong length already fails at the sanity marker, so a key storeDataKey
   * cannot seal is one whose IV is not one block long, and the registry is
   * left as it was.
   */
  method WriteKeyRegistry(reg: KeyRegistry, order: seq<u64>, opt: Options, ivSource: Entropy, writeOk: bool)
    returns (image: seq<byte>, err: Option<Error>)
    requires Enumerates(reg.dataKeys, order)
    modifies reg
    ensures reg.dataKeys == old(reg.dataKeys) && reg.nextKeyID == old(reg.nextKeyID)
    ensures reg.lastCreated == old(reg.lastCreated) && reg.file == old(reg.file)
    ensures err.Some? ==> image == []
    ensures !ivSource.Entropy? ==> err == Some(RandomSourceError)
    ensures ivSource.Entropy? && SanityMarker(reg.prims.keystream, opt.encryptionKey, GenerateIV(ivSource).value).Err? ==>
      err == Some(KeySizeError(|opt.encryptionKey|))
    ensures err.None? <==>
      && ivSource.Entropy? && SanityMarker(reg.prims.keystream, opt.encryptionKey, GenerateIV(ivSource).value).Ok?
      && AllSealable(opt.encryptionKey, InOrder(reg.dataKeys, order)) && writeOk
    ensures err.None? ==>
      image == RegistryImage(reg.prims, opt.encryptionKey, GenerateIV(ivSource).value, InOrder(reg.dataKeys, order))
    ensures ivSource.Entropy? && SanityMarker(reg.prims.keystream, opt.encryptionKey, GenerateIV(ivSource).value).Ok?
            && !AllSealable(opt.encryptionKey, InOrder(reg.dataKeys, order)) ==>
      && err == Some(IvLengthPanic)
      && exists j :: 0 <= j < |order| && |reg.dataKeys[order[j]].iv| != BlockSize
           && (forall i :: 0 <= i < j ==> Sealable(opt.encryptionKey, reg.dataKeys[order[i]]))
    ensures ivSource.Entropy? && SanityMarker(reg.prims.keystream, opt.encryptionKey, GenerateIV(ivSource).value).Ok?
            && AllSealable(opt.encryptionKey, InOrder(reg.dataKeys, order)) && !writeOk ==>
      err == Some(WriteFailed)
  {
    var key, p := opt.encryptionKey, reg.prims;
    var ivr := GenerateIV(ivSource);
    if ivr.Err? {
      return [], Some(ivr.error);
    }
    var iv := ivr.value;
    var marker := SanityMarker(p.keystream, key, iv);
    if marker.Err? {
      return [], Some(marker.error);
    }
    ghost var m := reg.dataKeys;
    var buf, e := StoreKeys(reg, order, key, iv + marker.value);
    if e.Some? {
      ghost var j :| 0 <= j < |order| && !Sealable(key, m[order[j]])
        && (forall i :: 0 <= i < j ==> Sealable(key, m[order[i]]))
        && reg.dataKeys == m[order[j] := LeftByFailedStore(key, m[order[j]])];
      SameEntryUpdate(m, order[j]);
      return [], e;
    }
    if !writeOk {
      return [], Some(WriteFailed);
    }
    image, err := buf, None;
  }

  /** Storing an entry's own value under its id leaves the map as it was. */
  lemma SameEntryUpdate(m: map<u64, DataKey>, id: u64)
    requires id in m
    ensures m[id := m[id]] == m
  {
  }

  /** Ids listed in increasing order, as a range over the map visits them when it happens to be sorted. */
  predicate Ascending(order: seq<u64>) {
    forall i, j :: 0 <= i < j < |order| ==> order[i] < order[j]
  }

  /**
   * A registry whose entries are stored under their own ids, written by
   * WriteKeyRegistry in increasing id order, opens under the same storage key
   * and is read back by readKeyRegistry to a clean end with exactly the same
   * keys.
   */
  lemma WrittenRegistryReloads(p: Primitives, key: seq<byte>, iv: seq<byte>, m: map<u64, DataKey>, order: seq<u64>)
    requires UnmarshalInvertsMarshal(p)
    requires |iv| == BlockSize && (|key| == 0 || ValidKeyLength(key))
    requires Enumerates(m, order) && KeyedById(m) && Ascending(order)
    requires AllFramable(p, key, InOrder(m, order))
    ensures var f := FileImage(RegistryImage(p, key, iv, InOrder(m, order)), None);
      && IsValidRegistry(p.keystream, key, f) == HeaderCheck(HeaderSize, None)
      && Parse(p, key, f, IterState(HeaderSize, Zeros(8))).1 == None
      && Replay(Parse(p, key, f, IterState(HeaderSize, Zeros(8))).0).dataKeys == m
  {
    WrittenRegistryReadsBack(p, key, iv, InOrder(m, order));
    ReplayRebuildsAscending(m, order);
  }

  /**
   * With the replay step corrected to store each record under its own id,
   * the registry is read back whatever order the map range wrote it in.
   */
  lemma WrittenRegistryReloadsById(p: Primitives, key: seq<byte>, iv: seq<byte>, m: map<u64, DataKey>, order: seq<u64>)
    requires UnmarshalInvertsMarshal(p)
    requires |iv| == BlockSize && (|key| == 0 || ValidKeyLength(key))
    requires Enumerates(m, order) && KeyedById(m)
    requires AllFramable(p, key, InOrder(m, order))
    ensures var f := FileImage(RegistryImage(p, key, iv, InOrder(m, order)), None);
      && Parse(p, key, f, IterState(HeaderSize, Zeros(8))).1 == None
      && ReplayById(Parse(p, key, f, IterState(HeaderSize, Zeros(8))).0).dataKeys == m
  {
    WrittenRegistryReadsBack(p, key, iv, InOrder(m, order));
    ReplayByIdRebuilds(m, order);
  }

  /**
   * A successful rotation brings the registry file and memory back into
   * step: if the file, the contents `loaded` read when the registry was
   * built followed by what it has appended since, held the records `rs` and
   * memory was in step with them (exactly their replay, or that with
   * nextKeyID advanced by failed rotations), then afterwards the file holds
   * `rs` followed by the new key, and memory is exactly what replaying that
   * gives. It needs a non-negative rotation period (so the new key is not
   * older than lastCreated) and no wrap of nextKeyID.
   */
  lemma RotationPersists(reg: KeyRegistry, iv: seq<byte>, rs: seq<DataKey>, s: Snapshot, loaded: seq<byte>, file0: seq<byte>,
                         now: int, ivSource: Entropy, keySource: Entropy, writeOk: bool, r: Result<Option<DataKey>, Error>)
    requires SanityMarker(reg.prims.keystream, reg.opt.encryptionKey, iv).Ok? && AllSealable(reg.opt.encryptionKey, rs)
    requires InStep(s, rs) && loaded + file0 == RegistryImage(reg.prims, reg.opt.encryptionKey, iv, rs)
    requires reg.Rotated(s, file0, now, ivSource, keySource, writeOk, r) && r.Ok?
    requires s.nextKeyID < MaxU64
    requires reg.opt.rotationPeriod >= 0 && now - s.lastCreated * NanosPerSecond >= reg.opt.rotationPeriod
    ensures r.value.Some? && AllSealable(reg.opt.encryptionKey, rs + [r.value.value])
    ensures loaded + reg.file == RegistryImage(reg.prims, reg.opt.encryptionKey, iv, rs + [r.value.value])
    ensures reg.Abstract() == Replay(rs + [r.value.value])
  {
    var dk := RotatedKey(reg, s, file0, now, ivSource, keySource, writeOk, r);
    RotationAppendsFrame(reg.prims, reg.opt.encryptionKey, iv, rs, dk);
    SeqAssoc(loaded, file0, RecordBytes(reg.prims, reg.opt.encryptionKey, dk));
    SecondsNotBefore(now, s.lastCreated);
    RotationAgreesWithReplay(rs, dk);
  }

  /**
   * A failed rotation leaves the file as it was and memory still in step
   * with it, but no longer equal to its replay: nextKeyID has moved past the
   * largest id in the file (there is no rollback of nextKeyID++).
   */
  lemma FailedRotationKeepsInStep(reg: KeyRegistry, rs: seq<DataKey>, s: Snapshot, file0: seq<byte>,
                                  now: int, ivSource: Entropy, keySource: Entropy, writeOk: bool, r: Result<Option<DataKey>, Error>)
    requires InStep(s, rs)
    requires reg.Rotated(s, file0, now, ivSource, keySource, writeOk, r) && r.Err?
    requires s.nextKeyID < MaxU64
    ensures reg.file == file0 && InStep(reg.Abstract(), rs)
    ensures reg.Abstract().nextKeyID > Replay(rs).nextKeyID && reg.Abstract() != Replay(rs)
  {
  }

  /** Appending a key's frame to a registry file gives the file of the longer key list. */
  lemma RotationAppendsFrame(p: Primitives, key: seq<byte>, iv: seq<byte>, rs: seq<DataKey>, dk: DataKey)
    requires SanityMarker(p.keystream, key, iv).Ok? && AllSealable(key, rs) && Sealable(key, dk)
    ensures AllSealable(key, rs + [dk])
    ensures RegistryImage(p, key, iv, rs) + RecordBytes(p, key, dk) == RegistryImage(p, key, iv, rs + [dk])
  {
    EncodeAllLast(p, key, rs, dk);
  }

  /** The key a successful rotation created, and where it went. */
  lemma RotatedKey(reg: KeyRegistry, s: Snapshot, file0: seq<byte>,
                   now: int, ivSource: Entropy, keySource: Entropy, writeOk: bool, r: Result<Option<DataKey>, Error>)
    returns (dk: DataKey)
    requires reg.Rotated(s, file0, now, ivSource, keySource, writeOk, r) && r.Ok?
    ensures r == Ok(Some(dk)) && Sealable(reg.opt.encryptionKey, dk)
    ensures dk.keyId == reg.nextKeyID == Inc64(s.nextKeyID) && dk.createdAt == now / NanosPerSecond
    ensures reg.Abstract() == Snapshot(s.dataKeys[dk.keyId := dk], dk.keyId, dk.createdAt)
    ensures reg.file == file0 + RecordBytes(reg.prims, reg.opt.encryptionKey, dk)
  {
    dk := r.value.value;
  }

  /** Once rotation is due it stays due at every later clock reading, as long as the registry is not rotated. */
  lemma RotationStaysDue(reg: KeyRegistry, now: int, later: int)
    requires reg.RotationDue(now) && now <= later
    ensures reg.RotationDue(later)
  {
  }

  /**
   * Right after a rotation at clock reading `now` (lastCreated is `now` cut to
   * whole seconds) a rotation period of a second or more is not yet over, so
   * latestDataKey returns the new key rather than rotating again.
   */
  lemma NotDueRightAfterRotation(reg: KeyRegistry, now: int)
    requires reg.lastCreated == now / NanosPerSecond && reg.opt.rotationPeriod >= NanosPerSecond
    ensures !reg.RotationDue(now)
  {
  }

  /** A clock reading at or after `secs` whole seconds is, in whole seconds, no earlier than `secs`. */
  lemma SecondsNotBefore(now: int, secs: int)
    requires secs * NanosPerSecond <= now
    ensures now / NanosPerSecond >= secs
  {
  }
}

=== FILE: registry_file.dfy ===
/**
 * Reading the registry file (key_registry.go:106-182): the header check
 * (isValidRegistry) and the record iterator (keyRegistryIterator.Next).
 *
 * File layout, as the code writes and reads it:
 *   16 bytes  header IV
 *   12 bytes  the sanity text "Hello Badger", XORed under (storage key, header IV)
 *             when a storage key is configured
 *   frames    one per data key (see Codec), back to back until the end of the file
 */
module RegistryFile {
  import opened Bytes
  import opened Wrappers
  import opened Errors
  import opened Cipher
  import opened Codec

  /** "Hello Badger". */
  const SanityText: seq<byte> := [0x48, 0x65, 0x6C, 0x6C, 0x6F, 0x20, 0x42, 0x61, 0x64, 0x67, 0x65, 0x72]

  /** Where the frames start in a well-formed file. */
  const HeaderSize: nat := 28

  /**
   * An open registry file: its bytes, and optionally the offset of a device
   * fault; a read whose window covers that offset fails with an I/O error.
   */
  datatype FileImage = FileImage(contents: seq<byte>, fault: Option<nat>)

  /** How many bytes one read of an os.File asks the system for: `want`, cut to MaxRW. */
  function ReadLimit(want: nat): (n: nat)
    ensures n <= want && n <= MaxRW && (want > 0 ==> n > 0)
    ensures want <= MaxRW ==> n == want
  {
    if want <= MaxRW then want else MaxRW
  }

  function Min(a: nat, b: nat): nat {
    if a <= b then a else b
  }

  /**
   * `fp.Read(buf)` with `len(buf) == want` and the cursor at `pos`, as on a
   * regular file: an empty buffer reads nothing and succeeds; at the end of
   * the file the read reports io.EOF; otherwise it returns what is left, up to
   * `want` bytes and at most MaxRW (a short read is not an error).
   */
  function FileRead(f: FileImage, pos: nat, want: nat): (r: (seq<byte>, ReadStatus))
    ensures |r.0| <= want
    ensures r.1 != ReadOk ==> r.0 == [] && want > 0
    ensures r.1 == ReadOk && want > 0 ==> 0 < |r.0| && pos + |r.0| <= |f.contents|
    ensures r.1 == ReadOk && want > 0 ==> r.0 == f.contents[pos..pos + |r.0|]
    ensures r.1 == ReadOk && want > 0 ==> |r.0| == Min(ReadLimit(want), |f.contents| - pos)
    ensures r.1 == ReadEOF ==> pos >= |f.contents|
  {
    if want == 0 then ([], ReadOk)
    else if f.fault.Some? && pos <= f.fault.value < pos + ReadLimit(want) then ([], ReadFault)
    else if pos >= |f.contents| then ([], ReadEOF)
    else (f.contents[pos..Min(pos + ReadLimit(want), |f.contents|)], ReadOk)
  }

  /** Reading a window of a fault-free file that lies wholly inside it returns the window. */
  lemma ReadWindow(f: FileImage, pre: seq<byte>, bytes: seq<byte>, post: seq<byte>)
    requires f.fault.None? && f.contents == pre + bytes + post && |bytes| <= MaxRW
    ensures FileRead(f, |pre|, |bytes|) == (bytes, ReadOk)
  {
    assert f.contents[|pre|..|pre| + |bytes|] == bytes;
  }

  /** The 12 bytes WriteKeyRegistry puts after the header IV. */
  function SanityMarker(ks: Keystream, storageKey: seq<byte>, iv: seq<byte>): (r: Result<seq<byte>, Error>)
    ensures r.Ok? ==> |r.value| == |SanityText|
    ensures r.Ok? <==> |storageKey| == 0 || (ValidKeyLength(storageKey) && |iv| == BlockSize)
  {
    if |storageKey| > 0 then XORBlock(ks, SanityText, storageKey, iv) else Ok(SanityText)
  }

  /** The outcome of isValidRegistry: where it left the cursor, and the error it returned. */
  datatype HeaderCheck = HeaderCheck(pos: nat, err: Option<Error>)

  /** The marker as isValidRegistry sees it: decrypted when a storage key is configured. */
  function Unmasked(ks: Keystream, storageKey: seq<byte>, iv: seq<byte>, stored: seq<byte>): Result<seq<byte>, Error> {
    if |storageKey| > 0 then XORBlock(ks, stored, storageKey, iv) else Ok(stored)
  }

  /**
   * isValidRegistry (key_registry.go:125-146): read the IV, read the marker
   * (both into zeroed buffers; a short read is not detected), decrypt the
   * marker when a storage key is configured and compare it with the sanity text.
   */
  function IsValidRegistry(ks: Keystream, storageKey: seq<byte>, f: FileImage): (r: HeaderCheck)
    ensures r.pos <= HeaderSize
  {
    var (ivGot, s1) := FileRead(f, 0, BlockSize);
    if s1 != ReadOk then HeaderCheck(0, Some(ReadFailed(s1 == ReadEOF)))
    else
      var iv := ivGot + Zeros(BlockSize - |ivGot|);
      var (markGot, s2) := FileRead(f, |ivGot|, |SanityText|);
      if s2 != ReadOk then HeaderCheck(|ivGot|, Some(ReadFailed(s2 == ReadEOF)))
      else
        var pos := |ivGot| + |markGot|;
        match Unmasked(ks, storageKey, iv, markGot + Zeros(|SanityText| - |markGot|))
        case Err(e) => HeaderCheck(pos, Some(e))
        case Ok(plain) => HeaderCheck(pos, if plain == SanityText then None else Some(EncryptionKeyMismatch))
  }

  /**
   * On a file with a complete, readable header, isValidRegistry accepts
   * exactly when the decrypted marker is the sanity text, and otherwise fails
   * with ErrEncryptionKeyMismatch (or the cipher's own error for a bad key).
   */
  lemma HeaderCheckDecides(ks: Keystream, storageKey: seq<byte>, f: FileImage)
    requires f.fault.None? && |f.contents| >= HeaderSize
    ensures var u := Unmasked(ks, storageKey, f.contents[..16], f.contents[16..28]);
      IsValidRegistry(ks, storageKey, f) ==
        if u.Err? then HeaderCheck(HeaderSize, Some(u.error))
        else if u.value == SanityText then HeaderCheck(HeaderSize, None)
        else HeaderCheck(HeaderSize, Some(EncryptionKeyMismatch))
  {
    var iv, mark := f.contents[..16], f.contents[16..28];
    assert FileRead(f, 0, BlockSize) == (iv, ReadOk);
    assert FileRead(f, 16, 12) == (mark, ReadOk);
    assert iv + Zeros(0) == iv;
    assert mark + Zeros(0) == mark;
  }

  /** The header WriteKeyRegistry writes passes isValidRegistry under the same storage key. */
  lemma WrittenHeaderAccepted(ks: Keystream, storageKey: seq<byte>, iv: seq<byte>, rest: seq<byte>)
    requires |iv| == BlockSize && SanityMarker(ks, storageKey, iv).Ok?
    ensures IsValidRegistry(ks, storageKey, FileImage(iv + SanityMarker(ks, storageKey, iv).value + rest, None))
      == HeaderCheck(HeaderSize, None)
  {
    var marker := SanityMarker(ks, storageKey, iv).value;
    var f := FileImage(iv + marker + rest, None);
    assert f.contents[..16] == iv;
    assert f.contents[16..28] == marker;
    HeaderCheckDecides(ks, storageKey, f);
    if |storageKey| > 0 {
      XORBlockSelfInverse(ks, SanityText, storageKey, iv);
    }
  }

  /** The iterator's state: the file cursor and the reused header buffer lenCrcBuf. */
  datatype IterState = IterState(pos: nat, lenCrcBuf: seq<byte>)

  /** What Next returns: a data key, a clean end (nil, nil), or an error. */
  datatype NextResult = Record(dk: DataKey) | End | Failure(err: Error)

  /**
   * The tail of Next once the checksum has matched: unmarshal the payload and,
   * when a storage key is configured, decrypt the key material in place.
   */
  function Decode(p: Primitives, storageKey: seq<byte>, data: seq<byte>): (r: NextResult)
    ensures r.End? == false
  {
    match p.unmarshal(data)
    case None => Failure(UnmarshalError)
    case Some(dk) =>
      if |storageKey| > 0 then
        match XORBlock(p.keystream, dk.data, storageKey, dk.iv)
        case Err(e) => Failure(e)
        case Ok(plain) => Record(dk.(data := plain))
      else Record(dk)
  }

  /** Decoding a payload storeDataKey produced gives back the plaintext data key. */
  lemma DecodeStoredPayload(p: Primitives, storageKey: seq<byte>, k: DataKey)
    requires UnmarshalInvertsMarshal(p) && Sealable(storageKey, k)
    ensures Decode(p, storageKey, Payload(p, storageKey, k)) == Record(k)
  {
    assert p.unmarshal(Payload(p, storageKey, k)) == Some(Sealed(p.keystream, storageKey, k));
    if |storageKey| > 0 {
      UnsealSealed(p.keystream, storageKey, k);
    }
  }

  /**
   * keyRegistryIterator.Next (key_registry.go:148-182). The header read fills
   * lenCrcBuf from the front and leaves the rest of the previous header in
   * place; the payload is read into a zeroed buffer of the announced length.
   * io.EOF from either read is a clean end; the checksum is checked before
   * the payload is unmarshalled or decrypted.
   */
  function NextSpec(p: Primitives, storageKey: seq<byte>, f: FileImage, st: IterState): (r: (IterState, NextResult))
    requires |st.lenCrcBuf| == 8
    ensures |r.0.lenCrcBuf| == 8
    ensures st.pos <= r.0.pos
    ensures r.1.Record? ==> st.pos < r.0.pos <= |f.contents|
  {
    var (hdr, s1) := FileRead(f, st.pos, 8);
    if s1 == ReadEOF then (st, End)
    else if s1 == ReadFault then (st, Failure(ReadFailed(false)))
    else NextPayload(p, storageKey, f, IterState(st.pos + |hdr|, hdr + st.lenCrcBuf[|hdr|..]))
  }

  /**
   * The second half of Next, once the header is in lenCrcBuf and the cursor
   * after it: read the announced number of bytes and check and decode them.
   */
  function NextPayload(p: Primitives, storageKey: seq<byte>, f: FileImage, st: IterState): (r: (IterState, NextResult))
    requires |st.lenCrcBuf| == 8
    ensures r.0.lenCrcBuf == st.lenCrcBuf && st.pos <= r.0.pos
    ensures r.1.Record? && st.pos <= |f.contents| ==> r.0.pos <= |f.contents|
  {
    var l := Be32Value(st.lenCrcBuf[..4]);
    var (got, s2) := FileRead(f, st.pos, l);
    if s2 == ReadEOF then (st, End)
    else if s2 == ReadFault then (st, Failure(ReadFailed(false)))
    else
      var st' := IterState(st.pos + |got|, st.lenCrcBuf);
      var data := got + Zeros(l - |got|);
      if p.crc32c(data) != Be32Value(st.lenCrcBuf[4..]) then (st', Failure(BadChecksum))
      else (st', Decode(p, storageKey, data))
  }

  /** At the end of a readable file Next reports a clean end and moves nothing. */
  lemma NextAtEndOfFile(p: Primitives, storageKey: seq<byte>, f: FileImage, st: IterState)
    requires |st.lenCrcBuf| == 8 && f.fault.None? && st.pos >= |f.contents|
    ensures NextSpec(p, storageKey, f, st) == (st, End)
  {
  }

  /** A read error on the header other than io.EOF is returned, not taken for the end. */
  lemma NextHeaderFault(p: Primitives, storageKey: seq<byte>, f: FileImage, st: IterState)
    requires |st.lenCrcBuf| == 8 && f.fault.Some? && st.pos <= f.fault.value < st.pos + 8
    ensures NextSpec(p, storageKey, f, st) == (st, Failure(ReadFailed(false)))
  {
  }

  /**
   * Next on a complete frame: it moves past the frame, keeps its header in
   * lenCrcBuf, and decodes the payload only when the stored checksum is the
   * CRC-32C of the payload; otherwise it fails with errBadChecksum.
   */
  lemma NextOnFrame(p: Primitives, storageKey: seq<byte>, f: FileImage, st: IterState,
                    pre: seq<byte>, payload: seq<byte>, crc: u32, post: seq<byte>)
    requires |st.lenCrcBuf| == 8 && f.fault.None? && st.pos == |pre|
    requires |payload| <= MaxRW
    requires f.contents == pre + Be32(|payload|) + Be32(crc) + payload + post
    ensures NextSpec(p, storageKey, f, st) ==
      (IterState(|pre| + 8 + |payload|, Be32(|payload|) + Be32(crc)),
       if crc == p.crc32c(payload) then Decode(p, storageKey, payload) else Failure(BadChecksum))
  {
    var hdr := Be32(|payload|) + Be32(crc);
    RegroupHeader(pre, Be32(|payload|), Be32(crc), payload, post);
    HeaderOnFrame(p, storageKey, f, st, pre, hdr, payload + post);
    PayloadOnFrame(p, storageKey, f, |pre| + 8, pre + hdr, payload, crc, post);
    ghost var x := NextPayload(p, storageKey, f, IterState(|pre| + 8, hdr));
    assert x.0 == IterState(|pre| + 8 + |payload|, hdr);
    assert x.1 == if crc == p.crc32c(payload) then Decode(p, storageKey, payload) else Failure(BadChecksum);
  }

  /** A frame inside a file, split after its header and after its payload. */
  lemma RegroupHeader<T>(pre: seq<T>, a: seq<T>, b: seq<T>, c: seq<T>, post: seq<T>)
    ensures pre + a + b + c + post == pre + (a + b) + (c + post)
    ensures pre + a + b + c + post == (pre + (a + b)) + c + post
  {
  }

  /** The header half of Next on a complete header: it fills lenCrcBuf and moves past it. */
  lemma HeaderOnFrame(p: Primitives, storageKey: seq<byte>, f: FileImage, st: IterState,
                      pre: seq<byte>, hdr: seq<byte>, post: seq<byte>)
    requires |st.lenCrcBuf| == 8 && f.fault.None? && st.pos == |pre| && |hdr| == 8
    requires f.contents == pre + hdr + post
    ensures NextSpec(p, storageKey, f, st) == NextPayload(p, storageKey, f, IterState(|pre| + 8, hdr))
  {
    ReadWindow(f, pre, hdr, post);
    assert hdr + st.lenCrcBuf[8..] == hdr;
  }

  /** The payload half of Next on a frame whose header announces the payload's true length. */
  lemma PayloadOnFrame(p: Primitives, storageKey: seq<byte>, f: FileImage,
                       at: nat, pre: seq<byte>, payload: seq<byte>, crc: u32, post: seq<byte>)
    requires f.fault.None? && |payload| <= MaxRW
    requires f.contents == pre + payload + post && at == |pre|
    ensures var hdr := Be32(|payload|) + Be32(crc);
      NextPayload(p, storageKey, f, IterState(at, hdr)) ==
        (IterState(at + |payload|, hdr),
         if crc == p.crc32c(payload) then Decode(p, storageKey, payload) else Failure(BadChecksum))
  {
    var hdr := Be32(|payload|) + Be32(crc);
    ReadWindow(f, pre, payload, post);
    assert payload + Zeros(0) == payload;
    Be32RoundTrip(|payload|);
    Be32RoundTrip(crc);
    assert hdr[..4] == Be32(|payload|) && hdr[4..] == Be32(crc);
  }

  /**
   * Next on any complete record of any fault-free file, written by this code
   * or not: the first four bytes at the cursor announce the payload length,
   * and when that many bytes (at most one read's worth) follow the header,
   * Next moves past them, keeps the header in lenCrcBuf, and decodes them
   * exactly when the next four bytes are their CRC-32C.
   */
  lemma NextOnCompleteRecord(p: Primitives, storageKey: seq<byte>, f: FileImage, st: IterState)
    requires |st.lenCrcBuf| == 8 && f.fault.None? && st.pos + 8 <= |f.contents|
    requires st.pos + 8 + Be32Value(f.contents[st.pos..st.pos + 4]) <= |f.contents|
    requires Be32Value(f.contents[st.pos..st.pos + 4]) <= MaxRW
    ensures var c, i := f.contents, st.pos;
      var l := Be32Value(c[i..i + 4]);
      NextSpec(p, storageKey, f, st).0 == IterState(i + 8 + l, c[i..i + 8])
    ensures var c, i := f.contents, st.pos;
      var l := Be32Value(c[i..i + 4]);
      NextSpec(p, storageKey, f, st).1 ==
        if Be32Value(c[i + 4..i + 8]) == p.crc32c(c[i + 8..i + 8 + l]) then Decode(p, storageKey, c[i + 8..i + 8 + l])
        else Failure(BadChecksum)
  {
    var c, i := f.contents, st.pos;
    var lenField, crcField := c[i..i + 4], c[i + 4..i + 8];
    var l, crc := Be32Value(lenField), Be32Value(crcField);
    var payload := c[i + 8..i + 8 + l];
    SplitRecord(c, i, l);
    Be32Surjective(lenField);
    Be32Surjective(crcField);
    assert |payload| == l;
    assert c == c[..i] + Be32(|payload|) + Be32(crc) + payload + c[i + 8 + l..];
    NextOnFrame(p, storageKey, f, st, c[..i], payload, crc, c[i + 8 + l..]);
    ghost var x := NextSpec(p, storageKey, f, st);
    assert x.0 == IterState(i + 8 + l, c[i..i + 8]);
    assert x.1 == if crc == p.crc32c(payload) then Decode(p, storageKey, payload) else Failure(BadChecksum);
  }

  /**
   * Next on a record whose header `hdr` announces more than one read
   * returns: the single read of the payload stops after MaxRW bytes, the rest
   * of `data` stays zero, the cursor stops MaxRW bytes past the header, and
   * the checksum is checked on that zero-padded buffer rather than on the
   * stored payload.
   */
  lemma NextOnOversizedRecord(p: Primitives, storageKey: seq<byte>, f: FileImage, st: IterState,
                              pre: seq<byte>, hdr: seq<byte>, post: seq<byte>)
    requires |st.lenCrcBuf| == 8 && f.fault.None? && st.pos == |pre|
    requires f.contents == pre + hdr + post && |hdr| == 8 && |post| >= MaxRW
    requires Be32Value(hdr[..4]) > MaxRW
    ensures NextSpec(p, storageKey, f, st).0 == IterState(|pre| + 8 + MaxRW, hdr)
    ensures var data := post[..MaxRW] + Zeros(Be32Value(hdr[..4]) - MaxRW);
      NextSpec(p, storageKey, f, st).1 ==
        if Be32Value(hdr[4..]) == p.crc32c(data) then Decode(p, storageKey, data) else Failure(BadChecksum)
  {
    HeaderOnFrame(p, storageKey, f, st, pre, hdr, post);
    PayloadOverLimit(p, storageKey, f, pre + hdr, post, hdr);
  }

  /** The payload half of Next when the header announces more than one read returns. */
  lemma PayloadOverLimit(p: Primitives, storageKey: seq<byte>, f: FileImage, pre: seq<byte>, post: seq<byte>, hdr: seq<byte>)
    requires f.fault.None? && f.contents == pre + post && |post| >= MaxRW
    requires |hdr| == 8 && Be32Value(hdr[..4]) > MaxRW
    ensures NextPayload(p, storageKey, f, IterState(|pre|, hdr)).0 == IterState(|pre| + MaxRW, hdr)
    ensures var data := post[..MaxRW] + Zeros(Be32Value(hdr[..4]) - MaxRW);
      NextPayload(p, storageKey, f, IterState(|pre|, hdr)).1 ==
        if Be32Value(hdr[4..]) == p.crc32c(data) then Decode(p, storageKey, data) else Failure(BadChecksum)
  {
    var got := FileRead(f, |pre|, Be32Value(hdr[..4]));
    assert got.0 == post[..MaxRW] && got.1 == ReadOk;
  }

  /** A sequence cut at a record of `l` payload bytes starting at `i`. */
  lemma SplitRecord<T>(c: seq<T>, i: nat, l: nat)
    requires i + 8 + l <= |c|
    ensures c == c[..i] + c[i..i + 4] + c[i + 4..i + 8] + c[i + 8..i + 8 + l] + c[i + 8 + l..]
    ensures c[i..i + 8] == c[i..i + 4] + c[i + 4..i + 8]
  {
    assert c == c[..i] + c[i..i + 8] + c[i + 8..];
    assert c[i + 8..] == c[i + 8..i + 8 + l] + c[i + 8 + l..];
    assert c[i..i + 8] == c[i..i + 4] + c[i + 4..i + 8];
  }

  /** A frame whose checksum does not match its payload is rejected, whatever the payload holds. */
  lemma NextRejectsBadChecksum(p: Primitives, storageKey: seq<byte>, f: FileImage, st: IterState,
                               pre: seq<byte>, payload: seq<byte>, crc: u32, post: seq<byte>)
    requires |st.lenCrcBuf| == 8 && f.fault.None? && st.pos == |pre|
    requires |payload| <= MaxRW && crc != p.crc32c(payload)
    requires f.contents == pre + Be32(|payload|) + Be32(crc) + payload + post
    ensures NextSpec(p, storageKey, f, st).1 == Failure(BadChecksum)
  {
    NextOnFrame(p, storageKey, f, st, pre, payload, crc, post);
  }

  /** A frame inside a file, its three parts regrouped. */
  lemma RegroupFrame<T>(pre: seq<T>, a: seq<T>, b: seq<T>, c: seq<T>, post: seq<T>)
    ensures pre + (a + b + c) + post == pre + a + b + c + post
  {
  }

  /**
   * Next is the inverse of storeDataKey: positioned on a frame written with
   * the same storage key, it returns the original data key (id, plaintext key
   * material, IV and creation time) and moves past the frame.
   */
  lemma NextReadsStoredRecord(p: Primitives, storageKey: seq<byte>, f: FileImage, st: IterState,
                              pre: seq<byte>, k: DataKey, post: seq<byte>)
    requires UnmarshalInvertsMarshal(p) && Framable(p, storageKey, k)
    requires |st.lenCrcBuf| == 8 && f.fault.None? && st.pos == |pre|
    requires f.contents == pre + RecordBytes(p, storageKey, k) + post
    ensures var rec := RecordBytes(p, storageKey, k);
      NextSpec(p, storageKey, f, st) == (IterState(|pre| + |rec|, rec[..8]), Record(k))
  {
    var payload := Payload(p, storageKey, k);
    var rec := RecordBytes(p, storageKey, k);
    var crc := p.crc32c(payload);
    var hdr := Be32(|payload|) + Be32(crc);
    assert f.contents == pre + Be32(|payload|) + Be32(crc) + payload + post && rec[..8] == hdr && |rec| == 8 + |payload| by {
      assert LengthField(|payload|) == |payload|;
      assert rec == Be32(|payload|) + Be32(crc) + payload;
      RegroupFrame(pre, Be32(|payload|), Be32(crc), payload, post);
    }
    assert Decode(p, storageKey, payload) == Record(k) by {
      DecodeStoredPayload(p, storageKey, k);
    }
    NextOnFrame(p, storageKey, f, st, pre, payload, crc, post);
    ghost var x := NextSpec(p, storageKey, f, st);
    assert x.0 == IterState(|pre| + |rec|, rec[..8]);
    assert x.1 == Record(k);
  }

  /**
   * Replaying the iterator to its end: the records it yields, and the error
   * that stopped it (None for a clean end). Every record consumes at least
   * one byte of the file, so the iteration ends.
   */
  function Parse(p: Primitives, storageKey: seq<byte>, f: FileImage, st: IterState): (r: (seq<DataKey>, Option<Error>))
    requires |st.lenCrcBuf| == 8
    ensures r.0 != [] ==> st.pos + |r.0| <= |f.contents|
    decreases |f.contents| - st.pos
  {
    var next := NextSpec(p, storageKey, f, st);
    if next.1.Record? then
      var rest := Parse(p, storageKey, f, next.0);
      ([next.1.dk] + rest.0, rest.1)
    else if next.1.End? then ([], None)
    else ([], Some(next.1.err))
  }

  lemma SeqAssoc<T>(a: seq<T>, b: seq<T>, c: seq<T>)
    ensures a + (b + c) == a + b + c
  {
  }

  /** One record step of Parse. */
  lemma ParseRecordStep(p: Primitives, storageKey: seq<byte>, f: FileImage, st: IterState, st': IterState, dk: DataKey)
    requires |st.lenCrcBuf| == 8 && NextSpec(p, storageKey, f, st) == (st', Record(dk))
    ensures |st'.lenCrcBuf| == 8
    ensures Parse(p, storageKey, f, st) == ([dk] + Parse(p, storageKey, f, st').0, Parse(p, storageKey, f, st').1)
  {
  }

  /** The keys after the first of a framable list are framable. */
  lemma AllFramableTail(p: Primitives, storageKey: seq<byte>, rs: seq<DataKey>)
    requires AllFramable(p, storageKey, rs) && rs != []
    ensures Framable(p, storageKey, rs[0]) && AllFramable(p, storageKey, rs[1..])
  {
    assert forall i :: 0 <= i < |rs[1..]| ==> rs[1..][i] == rs[i + 1];
  }

  /** A file holding the frames of `rs` holds the first frame, then the frames of the rest. */
  lemma SplitFirstFrame(p: Primitives, storageKey: seq<byte>, contents: seq<byte>, pre: seq<byte>, rs: seq<DataKey>)
    requires rs != [] && AllSealable(storageKey, rs) && AllSealable(storageKey, rs[1..]) && Sealable(storageKey, rs[0])
    requires contents == pre + EncodeAll(p, storageKey, rs)
    ensures contents == pre + RecordBytes(p, storageKey, rs[0]) + EncodeAll(p, storageKey, rs[1..])
  {
    EncodeAllFirst(p, storageKey, rs);
  }

  /** Next on the first of several stored frames yields its key and leaves the cursor on the rest. */
  lemma NextOnStoredFrames(p: Primitives, storageKey: seq<byte>, f: FileImage, st: IterState,
                           pre: seq<byte>, rs: seq<DataKey>)
    returns (st': IterState, pre': seq<byte>)
    requires UnmarshalInvertsMarshal(p)
    requires AllFramable(p, storageKey, rs) && rs != []
    requires |st.lenCrcBuf| == 8 && f.fault.None? && st.pos == |pre|
    requires f.contents == pre + EncodeAll(p, storageKey, rs)
    ensures NextSpec(p, storageKey, f, st) == (st', Record(rs[0]))
    ensures AllFramable(p, storageKey, rs[1..])
    ensures |st'.lenCrcBuf| == 8 && st'.pos == |pre'|
    ensures f.contents == pre' + EncodeAll(p, storageKey, rs[1..])
  {
    AllFramableTail(p, storageKey, rs);
    SplitFirstFrame(p, storageKey, f.contents, pre, rs);
    var rec := RecordBytes(p, storageKey, rs[0]);
    var rest := EncodeAll(p, storageKey, rs[1..]);
    st', pre' := IterState(|pre| + |rec|, rec[..8]), pre + rec;
    NextReadsStoredRecord(p, storageKey, f, st, pre, rs[0], rest);
    ghost var x := NextSpec(p, storageKey, f, st);
    assert x.0 == st';
    assert x.1 == Record(rs[0]);
  }

  /**
   * The records and the error still to come, split at one call of Next: a
   * record joins those already read, anything else ends the iteration.
   */
  lemma ParseAfterNext(p: Primitives, storageKey: seq<byte>, f: FileImage, st: IterState, st': IterState,
                       r: NextResult, seen: seq<DataKey>, all: (seq<DataKey>, Option<Error>))
    requires |st.lenCrcBuf| == 8 && (st', r) == NextSpec(p, storageKey, f, st)
    requires all == (seen + Parse(p, storageKey, f, st).0, Parse(p, storageKey, f, st).1)
    ensures |st'.lenCrcBuf| == 8 && st.pos <= st'.pos
    ensures r.Record? ==> st.pos < st'.pos <= |f.contents|
    ensures r.Record? ==> all == (seen + [r.dk] + Parse(p, storageKey, f, st').0, Parse(p, storageKey, f, st').1)
    ensures !r.Record? ==> all == (seen, if r.Failure? then Some(r.err) else None)
  {
    if r.Record? {
      ParseAfterRecord(p, storageKey, f, st, st', r.dk, seen, all);
    } else {
      ParseAfterStop(p, storageKey, f, st, st', r, seen, all);
    }
  }

  lemma ParseAfterRecord(p: Primitives, storageKey: seq<byte>, f: FileImage, st: IterState, st': IterState,
                         dk: DataKey, seen: seq<DataKey>, all: (seq<DataKey>, Option<Error>))
    requires |st.lenCrcBuf| == 8 && (st', Record(dk)) == NextSpec(p, storageKey, f, st)
    requires all == (seen + Parse(p, storageKey, f, st).0, Parse(p, storageKey, f, st).1)
    ensures |st'.lenCrcBuf| == 8
    ensures all == (seen + [dk] + Parse(p, storageKey, f, st').0, Parse(p, storageKey, f, st').1)
  {
    ParseRecordStep(p, storageKey, f, st, st', dk);
    var rest := Parse(p, storageKey, f, st');
    SeqAssoc(seen, [dk], rest.0);
  }

  lemma ParseAfterStop(p: Primitives, storageKey: seq<byte>, f: FileImage, st: IterState, st': IterState,
                       r: NextResult, seen: seq<DataKey>, all: (seq<DataKey>, Option<Error>))
    requires |st.lenCrcBuf| == 8 && (st', r) == NextSpec(p, storageKey, f, st) && !r.Record?
    requires all == (seen + Parse(p, storageKey, f, st).0, Parse(p, storageKey, f, st).1)
    ensures all == (seen, if r.Failure? then Some(r.err) else None)
  {
    assert Parse(p, storageKey, f, st) == ([], if r.Failure? then Some(r.err) else None);
    assert seen + [] == seen;
  }

  /** Frames written back to back under one storage key are read back, in order, to a clean end. */
  lemma {:induction false} ParseStoredRecords(p: Primitives, storageKey: seq<byte>, f: FileImage, st: IterState,
                                              pre: seq<byte>, rs: seq<DataKey>)
    requires UnmarshalInvertsMarshal(p)
    requires AllFramable(p, storageKey, rs)
    requires |st.lenCrcBuf| == 8 && f.fault.None? && st.pos == |pre|
    requires f.contents == pre + EncodeAll(p, storageKey, rs)
    ensures Parse(p, storageKey, f, st) == (rs, None)
    decreases |rs|
  {
    if rs == [] {
      assert f.contents == pre by {
        assert Frames(p, storageKey, rs) == [];
      }
      NextAtEndOfFile(p, storageKey, f, st);
    } else {
      var st', pre' := NextOnStoredFrames(p, storageKey, f, st, pre, rs);
      ParseStoredRecords(p, storageKey, f, st', pre', rs[1..]);
      ParseConsRecord(p, storageKey, f, st, st', rs);
    }
  }

  /** A record followed by a parse of the rest of `rs` is a parse of `rs`. */
  lemma ParseConsRecord(p: Primitives, storageKey: seq<byte>, f: FileImage, st: IterState, st': IterState, rs: seq<DataKey>)
    requires rs != [] && |st.lenCrcBuf| == 8 && NextSpec(p, storageKey, f, st) == (st', Record(rs[0]))
    requires |st'.lenCrcBuf| == 8 && Parse(p, storageKey, f, st') == (rs[1..], None)
    ensures Parse(p, storageKey, f, st) == (rs, None)
  {
    ParseRecordStep(p, storageKey, f, st, st', rs[0]);
    assert rs == [rs[0]] + rs[1..];
  }

  /**
   * The whole file WriteKeyRegistry produces: header IV in clear, the marker,
   * then the frames, each one starting where the previous one ends.
   */
  function RegistryImage(p: Primitives, storageKey: seq<byte>, iv: seq<byte>, rs: seq<DataKey>): (img: seq<byte>)
    requires SanityMarker(p.keystream, storageKey, iv).Ok? && AllSealable(storageKey, rs)
    ensures |img| >= |iv| + |SanityText| && img[..|iv|] == iv
    ensures rs != [] ==> var first := RecordBytes(p, storageKey, rs[0]);
      |img| >= |iv| + |SanityText| + |first| && img[|iv| + |SanityText|..][..|first|] == first
  {
    var body := EncodeAll(p, storageKey, rs);
    assert rs != [] ==> |body| >= |RecordBytes(p, storageKey, rs[0])| && body[..|RecordBytes(p, storageKey, rs[0])|] == RecordBytes(p, storageKey, rs[0]) by {
      if rs != [] { EncodeAllFirst(p, storageKey, rs); }
    }
    iv + SanityMarker(p.keystream, storageKey, iv).value + body
  }

  /**
   * A registry file written under a storage key opens under that key, and its
   * iterator yields exactly the keys written, in the order written.
   */
  lemma WrittenRegistryReadsBack(p: Primitives, storageKey: seq<byte>, iv: seq<byte>, rs: seq<DataKey>)
    requires UnmarshalInvertsMarshal(p)
    requires |iv| == BlockSize && (|storageKey| == 0 || ValidKeyLength(storageKey))
    requires AllFramable(p, storageKey, rs)
    ensures var f := FileImage(RegistryImage(p, storageKey, iv, rs), None);
      && IsValidRegistry(p.keystream, storageKey, f) == HeaderCheck(HeaderSize, None)
      && Parse(p, storageKey, f, IterState(HeaderSize, Zeros(8))) == (rs, None)
  {
    var marker := SanityMarker(p.keystream, storageKey, iv).value;
    var body := EncodeAll(p, storageKey, rs);
    var f := FileImage(RegistryImage(p, storageKey, iv, rs), None);
    WrittenHeaderAccepted(p.keystream, storageKey, iv, body);
    assert f.contents == (iv + marker) + body;
    ParseStoredRecords(p, storageKey, f, IterState(HeaderSize, Zeros(8)), iv + marker, rs);
  }

  /** keyRegistryIterator (key_registry.go:107-112): the storage key, the open file and the header buffer. */
  class RegistryIterator {
    const encryptionKey: seq<byte>
    const file: FileImage
    const prims: Primitives
    /** The file's read cursor. */
    var pos: nat
    const lenCrcBuf: array<byte>

    ghost predicate Valid()
      reads this
    {
      lenCrcBuf.Length == 8
    }

    ghost function State(): (s: IterState)
      requires Valid()
      reads this, lenCrcBuf
      ensures |s.lenCrcBuf| == 8
    {
      IterState(pos, lenCrcBuf[..])
    }

    constructor (p: Primitives, storageKey: seq<byte>, f: FileImage, start: nat)
      ensures Valid() && fresh(lenCrcBuf)
      ensures prims == p && encryptionKey == storageKey && file == f
      ensures State() == IterState(start, Zeros(8))
    {
      prims, encryptionKey, file, pos := p, storageKey, f, start;
      lenCrcBuf := new byte[8](_ => 0);
      new;
      assert lenCrcBuf[..] == Zeros(8);
    }

    /**
     * keyRegistryIterator.Next (key_registry.go:148-182): the header is read
     * into lenCrcBuf in place, the payload into a fresh buffer.
     */
    method Next() returns (r: NextResult)
      requires Valid()
      modifies this, lenCrcBuf
      ensures Valid()
      ensures (State(), r) == NextSpec(prims, encryptionKey, file, old(State()))
    {
      var (hdr, s1) := FileRead(file, pos, lenCrcBuf.Length);
      if s1 == ReadEOF {
        return End;
      } else if s1 == ReadFault {
        return Failure(ReadFailed(false));
      }
      forall i | 0 <= i < |hdr| {
        lenCrcBuf[i] := hdr[i];
      }
      assert lenCrcBuf[..] == hdr + old(lenCrcBuf[..])[|hdr|..];
      pos := pos + |hdr|;
      r := ReadPayload();
    }

    /** The rest of Next once the header is in lenCrcBuf: the payload read, the checksum and the decoding. */
    method ReadPayload() returns (r: NextResult)
      requires Valid()
      modifies this
      ensures Valid() && lenCrcBuf[..] == old(lenCrcBuf[..])
      ensures (State(), r) == NextPayload(prims, encryptionKey, file, old(State()))
    {
      var l := Be32Value(lenCrcBuf[..4]);
      var (got, s2) := FileRead(file, pos, l);
      if s2 == ReadEOF {
        return End;
      } else if s2 == ReadFault {
        return Failure(ReadFailed(false));
      }
      pos := pos + |got|;
      var data := got + Zeros(l - |got|);
      if prims.crc32c(data) != Be32Value(lenCrcBuf[4..]) {
        return Failure(BadChecksum);
      }
      r := Decode(prims, encryptionKey, data);
    }
  }

  /**
   * newKeyRegistryIterator (key_registry.go:116-122): the iterator, and the
   * verdict of isValidRegistry, which has already moved the cursor past the
   * header it read.
   */
  method NewKeyRegistryIterator(p: Primitives, f: FileImage, storageKey: seq<byte>)
    returns (it: RegistryIterator, err: Option<Error>)
    ensures fresh(it) && fresh(it.lenCrcBuf) && it.Valid()
    ensures it.prims == p && it.encryptionKey == storageKey && it.file == f
    ensures var h := IsValidRegistry(p.keystream, storageKey, f);
      it.State() == IterState(h.pos, Zeros(8)) && err == h.err
  {
    var h := IsValidRegistry(p.keystream, storageKey, f);
    it := new RegistryIterator(p, storageKey, f, h.pos);
    err := h.err;
  }
}

=== FILE: replay.dfy ===
/**
 * What readKeyRegistry (key_registry.go:185-208) makes of the records the
 * iterator yields: the running maximum of the key ids becomes nextKeyID, the
 * running maximum of the creation times becomes lastCreated, and each record
 * is stored in the map under the running maximum id, which is its own id
 * only when the ids arrive in non-decreasing order.
 */
module KeyReplay {
  import opened Bytes
  import opened Codec

  /** The in-memory fields of a KeyRegistry: dataKeys, nextKeyID, lastCreated. */
  datatype Snapshot = Snapshot(dataKeys: map<u64, DataKey>, nextKeyID: u64, lastCreated: int)

  /** A registry built by newKeyRegistry. */
  const Empty := Snapshot(map[], 0, 0)

  /** One iteration of the loop of readKeyRegistry (key_registry.go:194-205). */
  function ReplayStep(s: Snapshot, dk: DataKey): (r: Snapshot)
    ensures r.nextKeyID >= s.nextKeyID && r.nextKeyID >= dk.keyId
    ensures r.nextKeyID == s.nextKeyID || r.nextKeyID == dk.keyId
    ensures r.lastCreated >= s.lastCreated && r.lastCreated >= dk.createdAt
    ensures r.lastCreated == s.lastCreated || r.lastCreated == dk.createdAt
    ensures r.dataKeys == s.dataKeys[r.nextKeyID := dk]
  {
    var next := if dk.keyId > s.nextKeyID then dk.keyId else s.nextKeyID;
    var last := if dk.createdAt > s.lastCreated then dk.createdAt else s.lastCreated;
    Snapshot(s.dataKeys[next := dk], next, last)
  }

  /**
   * The registry readKeyRegistry builds from the records `dks`, in file
   * order: with no record it is the empty registry, and otherwise the last
   * record read is the one stored under nextKeyID, the key latestDataKey
   * hands out until the next rotation.
   */
  function Replay(dks: seq<DataKey>): (r: Snapshot)
    ensures dks == [] ==> r == Empty
    ensures dks != [] ==> r.nextKeyID in r.dataKeys && r.dataKeys[r.nextKeyID] == dks[|dks| - 1]
    decreases |dks|
  {
    if dks == [] then Empty else ReplayStep(Replay(dks[..|dks| - 1]), dks[|dks| - 1])
  }

  /** No key is stored under an id above nextKeyID. */
  predicate IdsBounded(s: Snapshot) {
    forall id :: id in s.dataKeys ==> id <= s.nextKeyID
  }

  /**
   * After replay no record read has a larger id than nextKeyID or a later
   * creation time than lastCreated, lastCreated is never below 0, and no
   * entry is stored under an id above nextKeyID.
   */
  lemma {:induction false} ReplayUpperBounds(dks: seq<DataKey>)
    ensures var r := Replay(dks);
      && (forall i :: 0 <= i < |dks| ==> dks[i].keyId <= r.nextKeyID && dks[i].createdAt <= r.lastCreated)
      && 0 <= r.lastCreated
      && IdsBounded(r)
    decreases |dks|
  {
    if dks != [] {
      var init := dks[..|dks| - 1];
      ReplayUpperBounds(init);
      assert forall i :: 0 <= i < |init| ==> dks[i] == init[i];
    }
  }

  /**
   * The maxima are attained: nextKeyID is 0 or the id of a record read,
   * lastCreated is 0 or the creation time of a record read, and once a record
   * was read the map holds an entry under nextKeyID.
   */
  lemma {:induction false} ReplayMaximaAttained(dks: seq<DataKey>)
    ensures var r := Replay(dks);
      && (r.nextKeyID == 0 || exists i :: 0 <= i < |dks| && dks[i].keyId == r.nextKeyID)
      && (r.lastCreated == 0 || exists i :: 0 <= i < |dks| && dks[i].createdAt == r.lastCreated)
      && (dks != [] ==> r.nextKeyID in r.dataKeys)
    decreases |dks|
  {
    if dks != [] {
      var init, last := dks[..|dks| - 1], dks[|dks| - 1];
      ReplayMaximaAttained(init);
      var s, r := Replay(init), Replay(dks);
      if r.nextKeyID != 0 && r.nextKeyID != last.keyId {
        var i :| 0 <= i < |init| && init[i].keyId == s.nextKeyID;
        assert dks[i] == init[i];
      }
      if r.lastCreated != 0 && r.lastCreated != last.createdAt {
        var i :| 0 <= i < |init| && init[i].createdAt == s.lastCreated;
        assert dks[i] == init[i];
      }
    }
  }

  /** Every id the replayed map holds an entry under is the id of some record read. */
  lemma {:induction false} ReplayKeysAreIds(dks: seq<DataKey>)
    ensures forall id :: id in Replay(dks).dataKeys ==> exists i :: 0 <= i < |dks| && dks[i].keyId == id
    decreases |dks|
  {
    if dks != [] {
      var init, last := dks[..|dks| - 1], dks[|dks| - 1];
      ReplayKeysAreIds(init);
      ReplayMaximaAttained(init);
      var s := Replay(init);
      forall id | id in Replay(dks).dataKeys
        ensures exists i :: 0 <= i < |dks| && dks[i].keyId == id
      {
        if id in s.dataKeys {
          var i :| 0 <= i < |init| && init[i].keyId == id;
          assert dks[i] == init[i];
        } else {
          assert dks[|dks| - 1].keyId == id;
        }
      }
    }
  }

  /** Key ids that never decrease along the file. */
  predicate NonDecreasingIds(dks: seq<DataKey>) {
    forall i, j :: 0 <= i < j < |dks| ==> dks[i].keyId <= dks[j].keyId
  }

  /**
   * With non-decreasing ids every record is stored under its own id: the map
   * holds an entry under exactly the ids read, and the entry under each id is
   * a record with that id (the last one read, when an id repeats).
   */
  lemma {:induction false} ReplaySortedStoresById(dks: seq<DataKey>)
    requires NonDecreasingIds(dks)
    ensures var r := Replay(dks);
      && (forall i :: 0 <= i < |dks| ==> dks[i].keyId in r.dataKeys)
      && (forall id :: id in r.dataKeys ==> r.dataKeys[id].keyId == id)
      && (dks != [] ==> r.nextKeyID == dks[|dks| - 1].keyId)
    decreases |dks|
  {
    if dks != [] {
      var init, last := dks[..|dks| - 1], dks[|dks| - 1];
      ReplaySortedStoresById(init);
      ReplayUpperBounds(init);
      ReplayKeysAreIds(init);
      var s := Replay(init);
      if init != [] {
        assert init[|init| - 1] == dks[|dks| - 2];
      }
      assert s.nextKeyID <= last.keyId;
      assert forall i :: 0 <= i < |init| ==> dks[i] == init[i];
    }
  }

  /** Strictly increasing ids, as latestDataKey appends them. */
  predicate IncreasingIds(dks: seq<DataKey>) {
    forall i, j :: 0 <= i < j < |dks| ==> dks[i].keyId < dks[j].keyId
  }

  /** With strictly increasing ids each record is found under its own id. */
  lemma {:induction false} ReplayIncreasingFindsEach(dks: seq<DataKey>)
    requires IncreasingIds(dks)
    ensures forall i :: 0 <= i < |dks| ==> dks[i].keyId in Replay(dks).dataKeys && Replay(dks).dataKeys[dks[i].keyId] == dks[i]
    decreases |dks|
  {
    if dks != [] {
      var init, last := dks[..|dks| - 1], dks[|dks| - 1];
      ReplayIncreasingFindsEach(init);
      ReplaySortedStoresById(dks);
      ReplayUpperBounds(init);
      assert forall i :: 0 <= i < |init| ==> dks[i] == init[i];
      assert Replay(dks).nextKeyID == last.keyId;
    }
  }

  /**
   * Records that arrive out of id order are stored under the wrong id: a
   * file holding key 2 and then key 1 is read as a registry whose only entry,
   * under id 2, is key 1; key 2 is lost.
   */
  lemma ReplayOutOfOrderLosesKey()
    ensures var a, b := DataKey(2, [], [], 0), DataKey(1, [], [], 0);
      Replay([a, b]).dataKeys == map[2 := b]
  {
    var a, b := DataKey(2, [], [], 0), DataKey(1, [], [], 0);
    assert [a, b][..1] == [a];
    assert [a][..0] == [];
    assert Replay([a]) == Snapshot(map[2 := a], 2, 0);
    assert Replay([a, b]) == ReplayStep(Replay([a]), b);
  }

  /** No record before position `i` has a larger id: `dks[i]` raised (or matched) the running maximum. */
  predicate LeadsPrefix(dks: seq<DataKey>, i: nat)
    requires i < |dks|
  {
    forall k :: 0 <= k < i ==> dks[k].keyId <= dks[i].keyId
  }

  /**
   * The map holds entries only under ids of records that, when they arrived,
   * were at least as large as every id before them.
   */
  lemma {:induction false} ReplayKeysAreLeaders(dks: seq<DataKey>)
    ensures forall id :: id in Replay(dks).dataKeys ==>
      exists i :: 0 <= i < |dks| && dks[i].keyId == id && LeadsPrefix(dks, i)
    decreases |dks|
  {
    if dks != [] {
      var init, last, n := dks[..|dks| - 1], dks[|dks| - 1], |dks| - 1;
      ReplayKeysAreLeaders(init);
      ReplayUpperBounds(init);
      ReplayMaximaAttained(init);
      var s := Replay(init);
      forall id | id in Replay(dks).dataKeys
        ensures exists i :: 0 <= i < |dks| && dks[i].keyId == id && LeadsPrefix(dks, i)
      {
        if id == Replay(dks).nextKeyID && (last.keyId > s.nextKeyID || init == []) {
          assert LeadsPrefix(dks, n) by {
            forall k | 0 <= k < n
              ensures dks[k].keyId <= dks[n].keyId
            {
              assert dks[k] == init[k];
            }
          }
        } else {
          var i :| 0 <= i < |init| && init[i].keyId == id && LeadsPrefix(init, i);
          assert dks[i] == init[i];
          assert LeadsPrefix(dks, i) by {
            forall k | 0 <= k < i
              ensures dks[k].keyId <= dks[i].keyId
            {
              assert dks[k] == init[k];
            }
          }
        }
      }
    }
  }

  /** No key id occurs twice in the file, as latestDataKey writes it. */
  predicate DistinctIds(dks: seq<DataKey>) {
    forall i, j :: 0 <= i < j < |dks| ==> dks[i].keyId != dks[j].keyId
  }

  /**
   * With distinct ids that do not arrive in increasing order some key is lost:
   * a record that arrives below an earlier id is stored under the running
   * maximum, and its own id never becomes the running maximum.
   */
  lemma ReplayOutOfOrderLosesSomeKey(dks: seq<DataKey>)
    requires DistinctIds(dks) && !IncreasingIds(dks)
    ensures exists j :: 0 <= j < |dks| && dks[j].keyId !in Replay(dks).dataKeys
  {
    var i, j :| 0 <= i < j < |dks| && !(dks[i].keyId < dks[j].keyId);
    ReplayKeysAreLeaders(dks);
    forall k | 0 <= k < |dks| && dks[k].keyId == dks[j].keyId
      ensures !LeadsPrefix(dks, k)
    {
      assert k == j;
    }
    assert dks[j].keyId !in Replay(dks).dataKeys;
  }

  /**
   * For distinct ids, every record is found under its own id exactly when
   * the ids arrive in increasing order.
   */
  lemma ReplayStoresEachByIdIff(dks: seq<DataKey>)
    requires DistinctIds(dks)
    ensures IncreasingIds(dks) <==>
      forall i :: 0 <= i < |dks| ==> dks[i].keyId in Replay(dks).dataKeys && Replay(dks).dataKeys[dks[i].keyId] == dks[i]
  {
    if IncreasingIds(dks) {
      ReplayIncreasingFindsEach(dks);
    } else {
      ReplayOutOfOrderLosesSomeKey(dks);
    }
  }

  /** The step readKeyRegistry evidently intends: each record under its own id. */
  function ReplayByIdStep(s: Snapshot, dk: DataKey): (r: Snapshot)
    ensures r.dataKeys == s.dataKeys[dk.keyId := dk]
  {
    var next := if dk.keyId > s.nextKeyID then dk.keyId else s.nextKeyID;
    var last := if dk.createdAt > s.lastCreated then dk.createdAt else s.lastCreated;
    Snapshot(s.dataKeys[dk.keyId := dk], next, last)
  }

  function ReplayById(dks: seq<DataKey>): Snapshot
    decreases |dks|
  {
    if dks == [] then Empty else ReplayByIdStep(ReplayById(dks[..|dks| - 1]), dks[|dks| - 1])
  }

  /** Every key of `m`, in the order `order` lists their ids (a Go map range). */
  function InOrder(m: map<u64, DataKey>, order: seq<u64>): (r: seq<DataKey>)
    requires forall i :: 0 <= i < |order| ==> order[i] in m
    ensures |r| == |order| && forall i :: 0 <= i < |order| ==> r[i] == m[order[i]]
  {
    seq(|order|, i requires 0 <= i < |order| => m[order[i]])
  }

  /** `order` lists every id of `m` exactly once. */
  predicate Enumerates(m: map<u64, DataKey>, order: seq<u64>) {
    && (forall i :: 0 <= i < |order| ==> order[i] in m)
    && (forall id :: id in m ==> exists i :: 0 <= i < |order| && order[i] == id)
    && (forall i, j :: 0 <= i < j < |order| ==> order[i] != order[j])
  }

  /** Every entry of `m` is stored under its own key id. */
  predicate KeyedById(m: map<u64, DataKey>) {
    forall id :: id in m ==> m[id].keyId == id
  }

  /** The entries of `m` under the first `n` ids of `order`. */
  function Restrict(m: map<u64, DataKey>, order: seq<u64>, n: nat): map<u64, DataKey>
    requires n <= |order|
  {
    map id | id in m && id in order[..n] :: m[id]
  }

  /** Taking one more id of `order` adds the entry under that id. */
  lemma RestrictStep(m: map<u64, DataKey>, order: seq<u64>, n: nat)
    requires 0 < n <= |order| && order[n - 1] in m
    ensures Restrict(m, order, n) == Restrict(m, order, n - 1)[order[n - 1] := m[order[n - 1]]]
  {
    assert order[..n] == order[..n - 1] + [order[n - 1]];
  }

  /** Replaying one more key of InOrder(m, order) by id stores it under its own id. */
  lemma ReplayByIdInOrderStep(m: map<u64, DataKey>, order: seq<u64>, n: nat)
    requires forall i :: 0 <= i < |order| ==> order[i] in m
    requires KeyedById(m) && 0 < n <= |order|
    ensures ReplayById(InOrder(m, order)[..n]).dataKeys
         == ReplayById(InOrder(m, order)[..n - 1]).dataKeys[order[n - 1] := m[order[n - 1]]]
  {
    var dks := InOrder(m, order)[..n];
    assert dks[..n - 1] == InOrder(m, order)[..n - 1];
    assert dks[n - 1] == m[order[n - 1]];
  }

  /** Replaying the first `n` ids of `order` by id rebuilds `m` restricted to them. */
  lemma {:induction false} ReplayByIdPrefix(m: map<u64, DataKey>, order: seq<u64>, n: nat)
    requires forall i :: 0 <= i < |order| ==> order[i] in m
    requires KeyedById(m) && n <= |order|
    ensures ReplayById(InOrder(m, order)[..n]).dataKeys == Restrict(m, order, n)
    decreases n
  {
    if n > 0 {
      ReplayByIdPrefix(m, order, n - 1);
      ReplayByIdInOrderStep(m, order, n);
      RestrictStep(m, order, n);
    } else {
      assert InOrder(m, order)[..0] == [];
    }
  }

  /**
   * Replaying by id rebuilds any registry whose entries are stored under
   * their own ids, whatever order the map was written in.
   */
  lemma ReplayByIdRebuilds(m: map<u64, DataKey>, order: seq<u64>)
    requires Enumerates(m, order) && KeyedById(m)
    ensures ReplayById(InOrder(m, order)).dataKeys == m
  {
    ReplayByIdPrefix(m, order, |order|);
    assert InOrder(m, order)[..|order|] == InOrder(m, order);
    assert order[..|order|] == order;
    assert Restrict(m, order, |order|) == m;
  }

  /** Listing a map keyed by id in increasing id order yields increasing key ids. */
  lemma AscendingOrderIncreasing(m: map<u64, DataKey>, order: seq<u64>)
    requires forall i :: 0 <= i < |order| ==> order[i] in m
    requires KeyedById(m)
    requires forall i, j :: 0 <= i < j < |order| ==> order[i] < order[j]
    ensures IncreasingIds(InOrder(m, order))
  {
  }

  /** A map that agrees with `m` on every id `order` lists, and holds no other id, is `m`. */
  lemma ListedMapEqual(m: map<u64, DataKey>, order: seq<u64>, r: map<u64, DataKey>)
    requires Enumerates(m, order)
    requires forall i :: 0 <= i < |order| ==> order[i] in r && r[order[i]] == m[order[i]]
    requires forall id :: id in r ==> exists i :: 0 <= i < |order| && order[i] == id
    ensures r == m
  {
    forall id | id in m
      ensures id in r && r[id] == m[id]
    {
      var i :| 0 <= i < |order| && order[i] == id;
    }
  }

  /**
   * Replay as written also rebuilds such a registry, provided the map was
   * written in increasing id order.
   */
  lemma ReplayRebuildsAscending(m: map<u64, DataKey>, order: seq<u64>)
    requires Enumerates(m, order) && KeyedById(m)
    requires forall i, j :: 0 <= i < j < |order| ==> order[i] < order[j]
    ensures Replay(InOrder(m, order)).dataKeys == m
  {
    var dks := InOrder(m, order);
    AscendingOrderIncreasing(m, order);
    ReplayIncreasingFindsEach(dks);
    ReplayKeysAreIds(dks);
    assert forall i :: 0 <= i < |order| ==> dks[i].keyId == order[i];
    ListedMapEqual(m, order, Replay(dks).dataKeys);
  }

  /**
   * Memory `s` is in step with the records `dks` of the file: it holds the
   * keys and lastCreated that replaying them gives, and a nextKeyID no lower
   * than theirs (a failed rotation advances nextKeyID and nothing else).
   */
  predicate InStep(s: Snapshot, dks: seq<DataKey>) {
    var t := Replay(dks);
    s.dataKeys == t.dataKeys && s.lastCreated == t.lastCreated && t.nextKeyID <= s.nextKeyID
  }

  /**
   * A key latestDataKey creates (id above the largest id in the file,
   * created no earlier than lastCreated) and appends to the file is replayed
   * into exactly the state latestDataKey leaves in memory.
   */
  lemma RotationAgreesWithReplay(dks: seq<DataKey>, dk: DataKey)
    requires dk.keyId >= Replay(dks).nextKeyID
    requires dk.createdAt >= Replay(dks).lastCreated
    ensures var s := Replay(dks);
      Replay(dks + [dk]) == Snapshot(s.dataKeys[dk.keyId := dk], dk.keyId, dk.createdAt)
  {
    assert (dks + [dk])[..|dks|] == dks;
  }
}

=== FILE: wrappers.dfy ===
/** Option and Result, the model's stand-ins for Go's nil pointers and `error` returns. */
module Wrappers {

  datatype Option<+T> = None | Some(value: T)

  datatype Result<+T, +E> = Ok(value: T) | Err(error: E)
}

/** The errors the key registry and the cipher helpers can surface to their callers. */
module Errors {

  datatype Error =
    | KeySizeError(size: nat)   // aes.NewCipher rejects a key that is not 16, 24 or 32 bytes
    | IvLengthPanic             // cipher.NewCTR panics when the IV is not one block long
    | RandomSourceError         // crypto/rand could not fill the buffer
    | ReadFailed(atEof: bool)   // a read error returned as an error (io.EOF only where it is not a clean end)
    | WriteFailed               // the writer or the registry file refused a write
    | BadChecksum               // errBadChecksum
    | EncryptionKeyMismatch     // ErrEncryptionKeyMismatch
    | InvalidDataKeyID(id: int) // ErrInvalidDataKeyID, wrapped with the requested id
    | UnmarshalError            // pb.DataKey.Unmarshal rejected the payload
}
